=== FILE: README.md ===
# MotoLeads front end — a Dafny model

MotoLeads is a Next.js application for a motorcycle dealership's referral
programme. Referrers ("indicadores") register leads, salespeople
("vendedores") register sales and run a financing simulator, and an
authentication context decides who sees which panel. This project models the
application's decision and arithmetic kernels as pure Dafny functions and
proves what they guarantee.

The modules are:

- `Options`: `Option` and `Result`.
- `JsNumbers`: the JavaScript number primitives the code relies on.
  - `parseFloat` and `parseInt` over a string prefix.
  - The `||` fallback on falsy numbers (`NaN` and 0).
  - `Math.round`.
  - Number-to-text.
- `Financing`: the financing simulator.
  - The money-string sanitiser.
  - The defaulting of the count and the rate.
  - The level-payment (Price) formula and the result record.
  - The fixed select options.
- `Roles`: role names, routes and the role→panel map.
- `AuthContext`: the provider state and its transitions. These are hydration, the session effect, the profile fetch, `signOut`, `switchRole` and `useAuth`.
- `PanelGuard`: the redirect effect, the render gate and the "latest five" list shared by the two panels.
- `LeadForm`: the lead-registration form, the check its submit handler makes and the lead record it builds.
- `ReferrerPanel`: the referrer dashboard. It covers the counts, commissions, ranking, conversion %, tier and progress badges, and the form toggle.
- `SalesPanel`: the salesperson dashboard. It covers revenue, goal percentages, the 3 % commission, the ranking text and the three-view switch.
- `HomePage`: the landing page's two redirect effects and its render ladder.
- `Navbar`: the role badge, the role switcher and sign-out.

Money, rates and percentages are Dafny `real`s, so there is no floating-point rounding. The backend client, the clock and every backend answer are parameters, as follows:

- `hasBackend`: whether the client exists.
- `backendOk`: the outcome of the update query.
- `row`: the row read.
- `session`: the user the backend reports.
- `now` and `nowIso`: the clock.

A few behaviours of the code are stated as they are rather than as one might expect:

- **The rate is never zero.** `parseFloat(taxa) / 100 || 0.015` turns a zero or unreadable rate into 1.5 %. The only undefined quotes are those whose coefficient `(1+r)^n` equals 1 or cannot be computed. These are the `Undefined` outcome, where JavaScript would show `NaN` or `Infinity`. The form's selects (src/components/forms/SimuladorFinanciamento.tsx:111-141) never produce one (`Financing.SelectOptionsAlwaysQuote`); it arises only for arbitrary typed strings such as a rate of −200 % with an even count (`Financing.NegativeRateEvenCountUndefined`).
- **A missing price is not an error value.** After sanitising, the price is never negative. A price of 0 raises an alert and leaves the previous result on screen (`Financing.Press`).
- **Negative instalments are possible.** A down payment larger than the price gives a negative instalment and negative interest (`Financing.InterestSign`).
- **The sales-panel ranking is not a real ranking.** It is `#` followed by 4 − sales. It reaches `#0` at four sales and turns negative after that (`SalesPanel.RankingPastFour`).
- **The sales conversion rate is not capped.** It is 20 % per sale and exceeds 100 % beyond five sales.
- **Leads from the form never convert.** Their status is always `novo` and they have no commission. So in the referrer panel, registering leads never changes the converted count or the commissions (`ReferrerPanel.FormLeadsNeverConvert`).
- **A user without a profile sees an empty panel.** A signed-in user whose profile could not be read is neither redirected nor shown anything (`PanelGuard.BlankRedirectsUnlessProfileMissing`).

## Model

| member | source | states |
|---|---|---|
| Financing.UpdateField | src/components/forms/SimuladorFinanciamento.tsx:57-59 | the edited field takes the new text; every other field keeps its value |
| Financing.InitialFormDefaults | src/components/forms/SimuladorFinanciamento.tsx:15-20 | the form opens with no price and with the count (24) and rate (1.5 %) the calculation falls back to |
| Financing.KeepDigitsCommas | src/components/forms/SimuladorFinanciamento.tsx:26 | the filtered text is no longer than the input and holds only digits and commas, each taken from the input |
| Financing.KeepClean | src/components/forms/SimuladorFinanciamento.tsx:26 | text made only of digits and commas passes the filter unchanged |
| Financing.KeepIdempotent | src/components/forms/SimuladorFinanciamento.tsx:26 | filtering twice is the same as filtering once |
| Financing.KeepConcat | src/components/forms/SimuladorFinanciamento.tsx:26 | the filter distributes over concatenation |
| Financing.KeepNone | src/components/forms/SimuladorFinanciamento.tsx:26 | text with neither digits nor commas filters to the empty string |
| Financing.FirstCommaToDot | src/components/forms/SimuladorFinanciamento.tsx:26 | length is kept; non-commas are kept; a comma stays a comma or becomes a point |
| Financing.FirstCommaOnly | src/components/forms/SimuladorFinanciamento.tsx:26 | a comma becomes a point exactly when no comma precedes it |
| Financing.NoCommaUnchanged | src/components/forms/SimuladorFinanciamento.tsx:26 | text without a comma is left as it is |
| Financing.CommaBecomesPoint | src/components/forms/SimuladorFinanciamento.tsx:26 | in `a,b` with no comma in `a`, only that comma becomes a point, whatever commas `b` holds |
| Financing.ParseMoney | src/components/forms/SimuladorFinanciamento.tsx:26-27 | a sanitised money field is never negative |
| Financing.SanitisedUnsigned | src/components/forms/SimuladorFinanciamento.tsx:26-27 | the cleaned text holds only digits, commas and points, so whatever it reads as is never negative |
| Financing.ParseMoneyOfKept | src/components/forms/SimuladorFinanciamento.tsx:26 | a field reads the same as its filtered text |
| Financing.ParseMoneyOfDigits | src/components/forms/SimuladorFinanciamento.tsx:26-27 | a plain digit string reads as the number it denotes |
| Financing.ParseMoneyDecimalComma | src/components/forms/SimuladorFinanciamento.tsx:26 | `digits,digits` reads as the decimal number; parsing stops at any later comma |
| Financing.ParseMoneyWithoutDigits | src/components/forms/SimuladorFinanciamento.tsx:26-27 | a field without a single digit, including the empty field, reads as 0 |
| Financing.ParseMoneyOfRendered | src/components/forms/SimuladorFinanciamento.tsx:26-27 | a whole number written in decimal reads back as itself |
| Financing.ParsePlaceholderPrice | src/components/forms/SimuladorFinanciamento.tsx:26 | the placeholder "R$ 25.000,00" reads as 25000: the dot is dropped and the comma is the decimal mark |
| Financing.MinusSignIsDropped | src/components/forms/SimuladorFinanciamento.tsx:26 | a minus sign before digits is filtered out rather than read, so "-1500" reads as 1500 |
| Financing.InstalmentCount | src/components/forms/SimuladorFinanciamento.tsx:28 | the count is the parsed integer, or 24 when parsing fails or gives 0; it is never 0 |
| Financing.MonthlyRate | src/components/forms/SimuladorFinanciamento.tsx:29 | the rate is the parsed percentage divided by 100, or 0.015 when that is 0 or unreadable; it is never 0 |
| Financing.Coefficient | src/components/forms/SimuladorFinanciamento.tsx:39 | `(1+r)^n` for n ≥ 0; undefined only for a negative count at rate −100 % |
| Financing.Instalment | src/components/forms/SimuladorFinanciamento.tsx:40 | the instalment times (coefficient − 1) is financed · rate · coefficient |
| Financing.CoefficientGrowth | src/components/forms/SimuladorFinanciamento.tsx:39 | for r > 0 and n ≥ 1 the coefficient exceeds 1, so the divisor is nonzero |
| Financing.BalanceClosedForm | src/components/forms/SimuladorFinanciamento.tsx:39-40 | after k periods of `b := b(1+r) − p` the balance satisfies `r·B = r·b·(1+r)^k − p·((1+r)^k − 1)` |
| Financing.AmortisesToZero | src/components/forms/SimuladorFinanciamento.tsx:38-40 | paying the formula's instalment for n periods leaves a balance of exactly 0 |
| Financing.QuoteFor | src/components/forms/SimuladorFinanciamento.tsx:31-54 | a non-positive price computes nothing, and so does a coefficient of 1; otherwise the record holds financed = price − down, total = down + n·instalment, interest = total − price and rate·100, and the instalment amortises the financed amount to 0 over n periods |
| Financing.Calculate | src/components/forms/SimuladorFinanciamento.tsx:25-55 | on the typed form, nothing is computed exactly when the price reads as 0; a quote carries the parsed price, the parsed down payment, the parsed count and the parsed monthly rate as a percentage, with a positive price, a non-negative down payment and a nonzero count |
| Financing.Press | src/components/forms/SimuladorFinanciamento.tsx:31-34 | a missing price leaves the displayed result as it was; otherwise the new calculation is shown |
| Financing.PositiveRateQuotes | src/components/forms/SimuladorFinanciamento.tsx:38-40 | with price > 0, r > 0 and n ≥ 1 there is always a quote, and its instalment is the Price formula |
| Financing.InterestSign | src/components/forms/SimuladorFinanciamento.tsx:36-43 | interest ≥ 0 when down ≤ price; it is exactly 0, with a zero instalment, when down = price; it is positive when down < price and negative when down > price |
| Financing.DownPaymentLowersInstalment | src/components/forms/SimuladorFinanciamento.tsx:36-40 | a larger down payment gives a strictly smaller instalment |
| Financing.InstalmentOptionCounts | src/components/forms/SimuladorFinanciamento.tsx:116-121 | each offered count reads as itself |
| Financing.OfferedCount | src/components/forms/SimuladorFinanciamento.tsx:28 | any value of the count select reads as one of 12, 18, 24, 36, 48, 60 |
| Financing.RateOptionValues | src/components/forms/SimuladorFinanciamento.tsx:136-141 | each offered rate reads as its decimal number |
| Financing.OfferedRate | src/components/forms/SimuladorFinanciamento.tsx:29 | an offered rate gives a positive monthly rate whose percentage is the option's number |
| Financing.NegativeRateEvenCountUndefined | src/components/forms/SimuladorFinanciamento.tsx:29-40 | a typed rate of "-200" is the monthly rate −2, and with an even count and a positive price the quote is undefined |
| Financing.SelectOptionsAlwaysQuote | src/components/forms/SimuladorFinanciamento.tsx:28-53 | with the selects' values and a positive price there is always a quote; its count is in {12,…,60} and its stored percentage round-trips the chosen option in {1.0,…,2.5} |
| JsNumbers.ParseFloat | src/components/forms/SimuladorFinanciamento.tsx:26-29 | a negative result needs a leading minus after the whitespace |
| JsNumbers.ParseFloatSign | src/components/forms/SimuladorFinanciamento.tsx:29 | after leading whitespace a minus negates the unsigned reading of the rest, `NaN` staying `NaN`, and a plus is skipped |
| JsNumbers.ParseFloatOfNegatedDigits | src/components/forms/SimuladorFinanciamento.tsx:29 | a minus followed by nothing but digits reads as minus the number the digits denote |
| JsNumbers.ParseUnsigned | src/components/forms/SimuladorFinanciamento.tsx:26-29 | a number is read exactly when the text starts with a digit, or with a point and a digit; it is never negative |
| JsNumbers.ParseFloatDecimal | src/components/forms/SimuladorFinanciamento.tsx:26 | `a.b` followed by anything that is not a digit reads as a + 0.b |
| JsNumbers.ParseFloatOfDigits | src/components/forms/SimuladorFinanciamento.tsx:26 | digits followed by neither a digit nor a point read as their integer value |
| JsNumbers.ParseInt | src/components/forms/SimuladorFinanciamento.tsx:28 | a negative result needs a leading minus after the whitespace |
| JsNumbers.OrReal | src/components/forms/SimuladorFinanciamento.tsx:26-29 | a parsed nonzero number is kept; `NaN` or 0 gives the fallback |
| JsNumbers.OrInt | src/components/forms/SimuladorFinanciamento.tsx:28 | a parsed nonzero integer is kept; `NaN` or 0 gives the fallback |
| JsNumbers.Round | src/app/indicador/page.tsx:145 | the rounded value is within half of the input, with halves rounded up |
| JsNumbers.IntToString | src/app/vendedor/page.tsx:335 | the text is non-empty and starts with a minus exactly for negative numbers |
| JsNumbers.NatToString | src/app/vendedor/page.tsx:335 | decimal digits without a leading zero, denoting the number |
| JsNumbers.ParseIntOfIntToString | src/app/vendedor/page.tsx:335 | reading back a written integer gives the integer |
| Roles.ParseRole | src/app/page.tsx:24-36 | a stored role is one of the three names exactly when it reads as a role, and then it reads back to that name |
| Roles.ParseRoleName | src/app/page.tsx:24-36 | every role's name reads back as the role |
| Roles.RoleNameInjective | src/contexts/AuthContext.tsx:11 | the three role names are distinct |
| Roles.PanelOf | src/app/page.tsx:24-33 | each role's panel has path `/` followed by the role's name, never the home or sign-in page |
| Roles.PathInjective | src/app/page.tsx:17-32 | distinct routes have distinct paths |
| Roles.PanelOfInjective | src/components/custom/Navbar.tsx:45-58 | distinct roles have distinct panels |
| AuthContext.Hydrate | src/contexts/AuthContext.tsx:34-37 | hydration records the configuration flag and touches nothing else |
| AuthContext.Setup | src/contexts/AuthContext.tsx:39-45 | the session is queried exactly when hydrated, configured and the client exists; otherwise a hydrated provider stops loading with user and profile unchanged |
| AuthContext.UnconfiguredSettles | src/contexts/AuthContext.tsx:27-45 | without configuration or client, the provider settles after hydration: not loading, signed out, no session query |
| AuthContext.SessionReport | src/contexts/AuthContext.tsx:48-68 | the reported user is stored; with a user, that user's profile is fetched; without one, loading stops, and a listener report also clears the profile |
| AuthContext.ProfileFetched | src/contexts/AuthContext.tsx:73-90 | a finished fetch always stops loading; the profile is replaced only by a row read successfully; the user, the hydration flag and the configuration flag are kept |
| AuthContext.SignOut | src/contexts/AuthContext.tsx:92-98 | with a client, user and profile are cleared; without one, nothing changes |
| AuthContext.SwitchRole | src/contexts/AuthContext.tsx:100-117 | a silent no-op without client, user or profile; a backend error throws and leaves the state unchanged; on success only the profile's role changes, to the chosen one |
| AuthContext.SwitchBack | src/contexts/AuthContext.tsx:112 | switching to a role and back to the original role restores the state exactly |
| AuthContext.SwitchedRoleReadsBack | src/contexts/AuthContext.tsx:112 | after a successful switch the stored role reads as the chosen role |
| AuthContext.SwitchIdempotent | src/contexts/AuthContext.tsx:100-117 | switching twice to the same role is the same as switching once |
| AuthContext.SignInLoadsProfile | src/contexts/AuthContext.tsx:48-88 | a reported user leads to a fetch of that user's profile; once the row arrives the context holds both and stops loading |
| AuthContext.Apply | src/contexts/AuthContext.tsx:33-117 | hydration sets the configuration flag to whether the client exists, and nothing else changes it; without a client no event changes user or profile |
| AuthContext.NoClientNoProfile | src/lib/supabase.ts:8-15 | from the initial state, without a client, every run of the provider keeps user and profile empty |
| AuthContext.ConfiguredIffClient | src/contexts/AuthContext.tsx:33-36 | once hydrated, the configuration flag says whether the client exists; before hydration it is off |
| AuthContext.UseAuth | src/contexts/AuthContext.tsx:134-140 | the context is returned inside the provider; outside it, the call fails with the provider's message |
| PanelGuard.GuardRedirect | src/app/indicador/page.tsx:38-49 | once settled, a visitor with no user is sent to `/auth` and a profile of another role to `/`; nothing happens before that |
| PanelGuard.RenderGate | src/app/vendedor/page.tsx:69-82 | the spinner shows exactly while unsettled; the panel is drawn exactly for a settled user whose profile has the panel's role |
| PanelGuard.PanelIsNotRedirected | src/app/indicador/page.tsx:38-82 | a drawn panel is never redirected away |
| PanelGuard.BlankRedirectsUnlessProfileMissing | src/app/vendedor/page.tsx:37-82 | a blank panel is redirected, except for a signed-in user with no profile |
| PanelGuard.PanelAdmitsOneRole | src/app/indicador/page.tsx:80-82 | no state draws two different role panels |
| PanelGuard.Recent | src/app/indicador/page.tsx:345 | the list shows the first min(5, count) entries, in order |
| PanelGuard.ShowsSeeAll | src/app/indicador/page.tsx:364 | "see all" is shown exactly when the list shown is shorter than the full list |
| PanelGuard.SeeAllIffTruncated | src/app/vendedor/page.tsx:368-385 | "see all" appears exactly when the shown list leaves entries out |
| PanelGuard.RecentOfPrepend | src/app/indicador/page.tsx:63 | a prepended entry is shown first, followed by the previously shown entries minus the fifth when full |
| LeadForm.EmptyFormIsEmpty | src/components/forms/CadastroLeadForm.tsx:18-26 | all seven fields of the initial form are empty |
| LeadForm.FieldsDetermineForm | src/components/forms/CadastroLeadForm.tsx:18-26 | two forms that agree on all seven fields are the same form |
| LeadForm.HandleChange | src/components/forms/CadastroLeadForm.tsx:49-51 | the edited field takes the value; every other field keeps its value |
| LeadForm.Required | src/components/forms/CadastroLeadForm.tsx:32 | a form passes validation exactly when name and phone, the required fields, are non-empty |
| LeadForm.ChangesCommute | src/components/forms/CadastroLeadForm.tsx:49-51 | edits to different fields can be made in either order |
| LeadForm.LastChangeWins | src/components/forms/CadastroLeadForm.tsx:49-51 | a later edit of the same field replaces the earlier one |
| LeadForm.Submit | src/components/forms/CadastroLeadForm.tsx:28-47 | rejected exactly when name or phone is empty; otherwise the lead carries every field unchanged, status "novo", owner "current_user", the clock's id and date, and no commission |
| LeadForm.OptionalFieldsNeverBlock | src/components/forms/CadastroLeadForm.tsx:32 | editing any of the five optional fields never changes whether the submit handler rejects the submission |
| LeadForm.MinimalSubmission | src/components/forms/CadastroLeadForm.tsx:18-47 | the untouched form is rejected; filling in only name and phone is accepted, with the other fields empty |
| ReferrerPanel.CountStatus | src/app/indicador/page.tsx:55 | a status count never exceeds the number of leads, and a single lead counts 1 exactly when it has the status |
| ReferrerPanel.ConvertedLeads | src/app/indicador/page.tsx:55-56 | the converted leads are exactly as many as the leads counted as converted, and every one has that status and comes from the list; a single lead is kept exactly when it is converted |
| ReferrerPanel.SumCommissions | src/app/indicador/page.tsx:56 | leads without a commission add nothing to the total, and a single lead adds its own commission (0 when it has none) |
| ReferrerPanel.StatsOf | src/app/indicador/page.tsx:52-59 | registered = number of leads; converted ≤ registered; commissions = sum over converted leads; ranking = min(count, 10), so 0 exactly without leads and 10 from ten leads on |
| ReferrerPanel.CountConcat | src/app/indicador/page.tsx:55 | status counts add up over concatenated lists |
| ReferrerPanel.ConvertedConcat | src/app/indicador/page.tsx:56 | the converted leads of a concatenation are those of each part, in order |
| ReferrerPanel.SumConcat | src/app/indicador/page.tsx:56 | commission sums add up over concatenated lists |
| ReferrerPanel.OnlyConvertedEarn | src/app/indicador/page.tsx:56 | leads of any other status contribute nothing, whatever commission they carry |
| ReferrerPanel.CommissionsNonNegative | src/app/indicador/page.tsx:56 | with no negative commission the total is never negative; a missing commission counts as 0 |
| ReferrerPanel.StatusCountsBounded | src/app/indicador/page.tsx:215-217 | the new, converted and lost counts together never exceed the number of leads |
| ReferrerPanel.ConversionPercent | src/app/indicador/page.tsx:145 | 0 without leads or conversions; 100 when all leads converted; always in [0,100] and within half of converted/registered·100 |
| ReferrerPanel.TierOf | src/app/indicador/page.tsx:308 | Iniciante exactly without leads, Ouro exactly from ten leads |
| ReferrerPanel.TierMonotone | src/app/indicador/page.tsx:308 | more leads never give a lower tier |
| ReferrerPanel.TierThresholds | src/app/indicador/page.tsx:308 | Iniciante exactly at 0 leads; Bronze from 1, Prata from 5, Ouro from 10 |
| ReferrerPanel.Progress | src/app/indicador/page.tsx:309 | 20 % per lead below five leads, then 100 %; always in [0,100] |
| ReferrerPanel.ProgressMonotone | src/app/indicador/page.tsx:309 | progress never decreases with more leads |
| ReferrerPanel.StatusLabel | src/app/indicador/page.tsx:357-358 | "convertido" reads "Convertido", "perdido" reads "Perdido", and every other status reads "Novo" |
| ReferrerPanel.Step | src/app/indicador/page.tsx:61-64 | the form is open exactly after opening it; registering prepends the lead; nothing else changes the list |
| ReferrerPanel.RegisterPrepends | src/app/indicador/page.tsx:61-64 | registering puts the lead first, keeps the older leads in order, grows the list by one and closes the form |
| ReferrerPanel.RegisterFormLead | src/app/indicador/page.tsx:52-64 | registering a submitted form lead adds one registered lead and changes neither the converted count nor the commissions |
| ReferrerPanel.RegisterLead | src/app/indicador/page.tsx:52-64 | registering any lead adds one registered lead; a converted lead also adds one sale and its commission, any other lead adds neither |
| ReferrerPanel.FormLeadsNeverConvert | src/app/indicador/page.tsx:52-64 | from an empty panel, any sequence of events registering only form leads keeps conversions and commissions at 0 |
| SalesPanel.StatsOf | src/app/vendedor/page.tsx:51-59 | five assigned leads; month sales = number of sales; revenue = sum of sale values; conversion = 20 % per sale, above 100 beyond five sales |
| SalesPanel.Revenue | src/app/vendedor/page.tsx:52 | with no negative sale value, no single sale is worth more than the revenue |
| SalesPanel.GoalPercent | src/app/vendedor/page.tsx:168 | the goal percentage is exactly 20 % per sale |
| SalesPanel.ConversionIsGoalPercent | src/app/vendedor/page.tsx:57-168 | the conversion rate equals the goal percentage of the month's sales |
| SalesPanel.RevenueGoalPercent | src/app/vendedor/page.tsx:181 | within half of revenue / 1000, the share of the R$ 100,000 goal |
| SalesPanel.RevenueGoalMonotone | src/app/vendedor/page.tsx:181 | more revenue never gives a lower goal percentage |
| SalesPanel.SalesCommission | src/app/vendedor/page.tsx:286 | 3 % of revenue, between 0 and the revenue when the revenue is not negative |
| SalesPanel.RevenueConcat | src/app/vendedor/page.tsx:52 | revenue adds up over concatenated sale lists |
| SalesPanel.RevenueNonNegative | src/app/vendedor/page.tsx:52 | with no negative sale value the revenue is never negative |
| SalesPanel.CommissionAdditive | src/app/vendedor/page.tsx:286 | the commission of two batches of sales is the sum of their commissions |
| SalesPanel.RankingText | src/app/vendedor/page.tsx:335 | "Não classificado" exactly without sales; otherwise `#` followed by text that reads back as 4 − sales |
| SalesPanel.RankingPastFour | src/app/vendedor/page.tsx:335 | four sales rank "#0", and more sales give a negative rank |
| SalesPanel.Step | src/app/vendedor/page.tsx:28-129 | the form view shows exactly after opening it, and so does the simulator; registering prepends the sale; nothing else changes the list |
| SalesPanel.LeavingReturnsToDashboard | src/app/vendedor/page.tsx:61-124 | back, cancel, close and registering a sale all return to the dashboard |
| SalesPanel.RegisterSale | src/app/vendedor/page.tsx:61-64 | registering puts the sale first, keeps the older ones, adds one sale and adds its value to the revenue |
| HomePage.AuthRedirect | src/app/page.tsx:15-19 | redirects to `/auth` exactly when hydrated, not loading, signed out and configured |
| HomePage.RoleRedirect | src/app/page.tsx:21-38 | fires only when hydrated with both user and profile, and only for a known role, going to the path `/` followed by the role |
| HomePage.RedirectsExclusive | src/app/page.tsx:15-38 | the two redirect effects never both fire |
| HomePage.RoleLanding | src/app/page.tsx:24-33 | each role lands on its own panel |
| HomePage.Render | src/app/page.tsx:40-122 | init spinner before hydration, before the configuration check; then the setup card, then the loading spinner, then nothing without a user, else the role cards |
| HomePage.BlankMeansSignIn | src/app/page.tsx:15-120 | the blank screen always comes with a redirect to `/auth`; the setup card never does |
| HomePage.NothingBeforeHydration | src/app/page.tsx:15-50 | before hydration there is no redirect and only the init spinner |
| HomePage.UnconfiguredShowsSetup | src/app/page.tsx:52 | an unconfigured installation shows the setup card once hydrated and redirects nowhere |
| Navbar.RoleLabel | src/components/custom/Navbar.tsx:68-79 | `admin`, `vendedor` and `indicador` are shown as Administrador, Vendedor and Indicador; any other role is shown as stored |
| Navbar.LabelsDistinct | src/components/custom/Navbar.tsx:68-79 | different roles have different labels |
| Navbar.Visible | src/components/custom/Navbar.tsx:94 | the bar is drawn only when there is both a user and a profile, so never while the home page is sending the visitor to sign in |
| Navbar.SignInShowsBar | src/components/custom/Navbar.tsx:94 | once a reported session has loaded its profile row, the bar is drawn |
| Navbar.RoleColor | src/components/custom/Navbar.tsx:81-92 | gray exactly for an unknown role |
| Navbar.ColorsDistinct | src/components/custom/Navbar.tsx:81-92 | different roles have different colours |
| Navbar.Begin | src/components/custom/Navbar.tsx:36-38 | while switching, loading is on and both message and error are cleared |
| Navbar.HandleRoleSwitch | src/components/custom/Navbar.tsx:33-66 | a no-op without a profile or for the current role; otherwise loading ends off and exactly one of message and error is set: success with the new panel's route, or the error with no route and the context unchanged |
| Navbar.SuccessMeansSwitched | src/components/custom/Navbar.tsx:40-42 | with a client and a user, a reported success means the stored role is the chosen one |
| Navbar.SilentSwitchUnreachable | src/components/custom/Navbar.tsx:40-42 | without a client, in any run of the provider, the bar is not drawn and a switch request changes nothing, so the silent return of `switchRole` never reaches the success message |
| Navbar.SwitchAndBack | src/components/custom/Navbar.tsx:33-66 | switching to another role and back restores the context |
| Navbar.Logout | src/components/custom/Navbar.tsx:24-31 | sign-out always routes to `/auth`; with a client the bar is then hidden, and without one nothing changes |
| Navbar.LogoutLeadsToSignIn | src/components/custom/Navbar.tsx:24-31 | after signing out of a settled, configured session, the home page is blank and redirects to `/auth` |

## Left out

- Floating point: money, rates and percentages are exact `real`s. IEEE-754 rounding, `Math.pow` overflow to `Infinity` and the `NaN`/`Infinity` results themselves are not modelled. The undefined cases become the `Undefined` outcome.
- `parseFloat`: the exponent part (`1e3`) and the `Infinity` literal are not read, because no input of the form produces them. `parseInt`: the `0x` prefix is not read, for the same reason.
- The claim that a higher rate never lowers the instalment is not proved. Only the sign and the down-payment monotonicity are.
- Browser form validation: the `required` attributes on name and phone (src/components/forms/CadastroLeadForm.tsx:77 and :91) and `type="email"` on the e-mail field (:104) sit inside a `<form>` without `noValidate` (:65), so the browser itself may block a submission before the submit handler runs. Only the handler's own check is modelled; in particular a malformed e-mail can be blocked by the browser, which `LeadForm.OptionalFieldsNeverBlock` does not cover.
- Presentation: `toLocaleString`, `toFixed`, the currency formatter, all JSX and the fixed placeholder figures such as the simulation count are left out. So are the `alert` texts, among them the lead list in an alert and the incentive-programme figures `min(n,5)`/`min(n,10)`/`min(n,20)`, which exist only inside an alert. The one exception is the ranking inside the goals alert, which `SalesPanel.RankingText` models.
- Time: `Date.now()` and `new Date().toISOString()` are the parameters `now` and `nowIso`. The 1.5 s delay before the Navbar's redirect is not modelled; the route is the switch's result.
- Concurrency: promises, `await` ordering and the auth-listener subscription are not modelled. Each backend answer is a separate transition with its outcome as a parameter.
- The backend calls themselves are not modelled: the session query, the profile query, the update query and `supabase.auth.signOut`. Their results are inputs. The sign-out call is taken never to throw, so the Navbar's logout `catch` branch is not modelled.
- `src/lib/supabase.ts` is reduced to the boolean `hasBackend`, whether the client exists. Within a provider run (`AuthContext.RunProvider`) the configuration flag equals it from hydration on, because both come from the same two environment variables; before hydration the flag is off (`AuthContext.ConfiguredIffClient`). The separate `configuredEnv` parameter of `AuthContext.Hydrate` is that flag.
- `src/app/auth/page.tsx` and `src/app/admin/page.tsx` are not part of this model.
- The Navbar's `default: router.push('/')` arm is unreachable for a typed role, so the route map is the total `Roles.PanelOf`.
- Event order in `AuthContext.RunProvider` is free: with a client, a session report or a profile row may arrive at any point, not only after the session effect or a fetch. Its invariants therefore cover every run the provider can make, and more.
- The sale-registration form is not part of this model. A sale carries only the customer name and the sale value.

=== FILE: auth_context.dfy ===
/** The authentication context shared by every page: the signed-in user, the
    profile read from the database, and the `loading`, `isHydrated` and
    `isConfigured` flags.  The backend client is a boolean `hasBackend`
    (whether the client exists); each backend call is a parameter standing
    for its outcome. */
module AuthContext {
  import opened Options
  import opened Roles

  /** The signed-in account; only its id is read. */
  datatype User = User(id: string)

  /** A profile row.  `role` is stored text: the row is taken from the
      database as it is. */
  datatype Profile = Profile(id: string, email: string, fullName: Option<string>, role: string)

  datatype AuthState = AuthState(
    user: Option<User>,
    profile: Option<Profile>,
    loading: bool,
    hydrated: bool,
    configured: bool)

  /** The provider's state before it has run in the browser. */
  const Initial := AuthState(None, None, true, false, false)

  /** First client-side effect: records whether the backend is configured
      and marks the provider hydrated. */
  function Hydrate(s: AuthState, configuredEnv: bool): (r: AuthState)
    ensures r.hydrated && r.configured == configuredEnv
    ensures r.user == s.user && r.profile == s.profile && r.loading == s.loading
  {
    s.(hydrated := true, configured := configuredEnv)
  }

  /** What the session effect does: either it stops with an updated state, or
      it asks the backend for the current session and subscribes. */
  datatype SetupOutcome = Stopped(state: AuthState) | QuerySession

  function Setup(s: AuthState, hasBackend: bool): (r: SetupOutcome)
    ensures r.QuerySession? <==> s.hydrated && s.configured && hasBackend
    ensures r.Stopped? && s.hydrated ==> !r.state.loading
    ensures r.Stopped? && !s.hydrated ==> r.state == s
    ensures r.Stopped? ==> r.state.user == s.user && r.state.profile == s.profile
  {
    if !s.hydrated || !s.configured || !hasBackend then
      Stopped(if s.hydrated then s.(loading := false) else s)
    else QuerySession
  }

  /** The state after a session report, together with the user whose profile
      must now be fetched, if any.  `fromListener` tells an auth-state change
      (which also clears the profile when signed out) from the first
      `getSession` answer (which does not). */
  datatype SessionStep = SessionStep(state: AuthState, fetch: Option<string>)

  function SessionReport(s: AuthState, session: Option<User>, fromListener: bool): (r: SessionStep)
    ensures r.state.user == session
    ensures r.fetch.Some? <==> session.Some?
    ensures session.Some? ==> r.fetch.value == session.value.id && r.state.profile == s.profile
    ensures session.Some? ==> r.state.loading == s.loading
    ensures session.None? ==> !r.state.loading
    ensures session.None? && fromListener ==> r.state.profile.None?
    ensures session.None? && !fromListener ==> r.state.profile == s.profile
    ensures r.state.hydrated == s.hydrated && r.state.configured == s.configured
  {
    var withUser := s.(user := session);
    match session
    case Some(u) => SessionStep(withUser, Some(u.id))
    case None =>
      SessionStep(if fromListener then withUser.(profile := None, loading := false)
                  else withUser.(loading := false), None)
  }

  /** A profile fetch finishing: `row` is the row read, `None` when the query
      failed.  Without a backend client the fetch returns at once. */
  function ProfileFetched(s: AuthState, hasBackend: bool, row: Option<Profile>): (r: AuthState)
    ensures !hasBackend ==> r == s
    ensures hasBackend ==> !r.loading
    ensures hasBackend && row.Some? ==> r.profile == row
    ensures row.None? ==> r.profile == s.profile
    ensures r.user == s.user
    ensures r.hydrated == s.hydrated && r.configured == s.configured
  {
    if !hasBackend then s
    else match row
      case Some(p) => s.(profile := Some(p), loading := false)
      case None => s.(loading := false)
  }

  /** Signing out forgets the user and the profile, when there is a backend. */
  function SignOut(s: AuthState, hasBackend: bool): (r: AuthState)
    ensures hasBackend ==> r.user.None? && r.profile.None?
    ensures !hasBackend ==> r == s
    ensures r.loading == s.loading && r.hydrated == s.hydrated && r.configured == s.configured
  {
    if hasBackend then s.(user := None, profile := None) else s
  }

  /** How an asynchronous call completes. */
  datatype Completion = Returned | Threw

  datatype Step = Step(state: AuthState, completion: Completion)

  /** Changes the stored role; `backendOk` is the outcome of the update
      query.  Without a backend, user or profile the call returns silently. */
  function SwitchRole(s: AuthState, hasBackend: bool, newRole: Role, backendOk: bool): (r: Step)
    ensures !hasBackend || s.user.None? || s.profile.None? ==> r == Step(s, Returned)
    ensures r.completion == Threw <==> hasBackend && s.user.Some? && s.profile.Some? && !backendOk
    ensures r.completion == Threw ==> r.state == s
    ensures r.state.user == s.user && r.state.loading == s.loading
    ensures r.state.hydrated == s.hydrated && r.state.configured == s.configured
    ensures r.state.profile.Some? <==> s.profile.Some?
    ensures r.state.profile.Some? ==>
      var p, q := s.profile.value, r.state.profile.value;
      q.id == p.id && q.email == p.email && q.fullName == p.fullName
    ensures hasBackend && s.user.Some? && s.profile.Some? && backendOk ==>
      r.state.profile.value.role == RoleName(newRole)
  {
    if !hasBackend || s.user.None? || s.profile.None? then Step(s, Returned)
    else if !backendOk then Step(s, Threw)
    else Step(s.(profile := Some(s.profile.value.(role := RoleName(newRole)))), Returned)
  }

  /** Switching to a role and then back to the role the profile had restores
      the state exactly. */
  lemma SwitchBack(s: AuthState, a: Role, b: Role)
    requires s.profile.Some? && ParseRole(s.profile.value.role) == Some(b)
    ensures SwitchRole(SwitchRole(s, true, a, true).state, true, b, true).state == s
  {
  }

  /** A successful switch is read back as the chosen role. */
  lemma SwitchedRoleReadsBack(s: AuthState, newRole: Role)
    requires s.user.Some? && s.profile.Some?
    ensures ParseRole(SwitchRole(s, true, newRole, true).state.profile.value.role) == Some(newRole)
  {
    ParseRoleName(newRole);
  }

  /** Switching twice to the same role is switching once. */
  lemma SwitchIdempotent(s: AuthState, hasBackend: bool, newRole: Role)
    ensures var once := SwitchRole(s, hasBackend, newRole, true).state;
      SwitchRole(once, hasBackend, newRole, true).state == once
  {
  }

  /** Without a configured backend the provider settles right after
      hydration: not loading, signed out, and it never asks for a session. */
  lemma UnconfiguredSettles(configuredEnv: bool, hasBackend: bool)
    requires !configuredEnv || !hasBackend
    ensures Setup(Hydrate(Initial, configuredEnv), hasBackend).Stopped?
    ensures var r := Setup(Hydrate(Initial, configuredEnv), hasBackend).state;
      !r.loading && r.user.None? && r.profile.None?
  {
  }

  /** A successful sign-in: the reported user's profile is read, loading
      stops, and the context holds that user with that profile. */
  lemma SignInLoadsProfile(s: AuthState, u: User, fromListener: bool, row: Profile)
    ensures var step := SessionReport(s, Some(u), fromListener);
      var t := ProfileFetched(step.state, true, Some(row));
      step.fetch == Some(u.id) && t.user == Some(u) && t.profile == Some(row) && !t.loading
  {
  }

  /** What can happen to the provider.  Whether the client exists is fixed
      for the whole run: the configuration flag and the client are made from
      the same two environment variables, so hydration records that very
      flag, and sessions are reported only by the client. */
  datatype ProviderEvent =
    | Hydrated
    | SessionEffect
    | SessionReported(session: Option<User>, fromListener: bool)
    | ProfileRead(row: Option<Profile>)
    | SignedOut
    | RoleSwitched(newRole: Role, backendOk: bool)

  function Apply(s: AuthState, hasBackend: bool, e: ProviderEvent): (r: AuthState)
    ensures e == Hydrated ==> r.configured == hasBackend
    ensures e != Hydrated ==> r.configured == s.configured
    ensures !hasBackend ==> r.user == s.user && r.profile == s.profile
  {
    match e
    case Hydrated => Hydrate(s, hasBackend)
    case SessionEffect =>
      (match Setup(s, hasBackend)
       case Stopped(t) => t
       case QuerySession => s)
    case SessionReported(session, fromListener) =>
      if hasBackend then SessionReport(s, session, fromListener).state else s
    case ProfileRead(row) => ProfileFetched(s, hasBackend, row)
    case SignedOut => SignOut(s, hasBackend)
    case RoleSwitched(newRole, backendOk) => SwitchRole(s, hasBackend, newRole, backendOk).state
  }

  /** The provider after a sequence of events, starting from `s`. */
  function RunProvider(s: AuthState, hasBackend: bool, events: seq<ProviderEvent>): AuthState {
    if |events| == 0 then s
    else Apply(RunProvider(s, hasBackend, events[..|events| - 1]), hasBackend, events[|events| - 1])
  }

  /** Without a client nobody is ever signed in: from the initial state,
      every run keeps user and profile empty. */
  lemma {:induction false} NoClientNoProfile(events: seq<ProviderEvent>)
    ensures RunProvider(Initial, false, events).user.None?
    ensures RunProvider(Initial, false, events).profile.None?
  {
    if |events| > 0 {
      NoClientNoProfile(events[..|events| - 1]);
    }
  }

  /** Once hydrated, the configuration flag says whether the client exists. */
  lemma {:induction false} ConfiguredIffClient(hasBackend: bool, events: seq<ProviderEvent>)
    ensures Hydrated in events ==> RunProvider(Initial, hasBackend, events).configured == hasBackend
    ensures Hydrated !in events ==> !RunProvider(Initial, hasBackend, events).configured
  {
    if |events| > 0 {
      var init := events[..|events| - 1];
      assert events == init + [events[|events| - 1]];
      ConfiguredIffClient(hasBackend, init);
    }
  }

  /** Reading the context outside its provider fails with the provider's
      message. */
  function UseAuth(context: Option<AuthState>): (r: Result<AuthState>)
    ensures r.Success? <==> context.Some?
    ensures r.Success? ==> r.value == context.value
    ensures r.Failure? ==> r.error == "useAuth deve ser usado dentro de AuthProvider"
  {
    match context
    case Some(s) => Success(s)
    case None => Failure("useAuth deve ser usado dentro de AuthProvider")
  }
}

=== FILE: financing.dfy ===
/** The financing simulator: the raw form strings are sanitised and
    defaulted, then the level-payment (Price/French) amortisation formula
    gives the monthly instalment, the total paid and the total interest. */
module Financing {
  import opened Options
  import opened JsNumbers

  // ---------------------------------------------------------------------
  // Form state and input sanitising
  // ---------------------------------------------------------------------

  /** The simulator's four text inputs. */
  datatype SimulatorForm = SimulatorForm(valorMoto: string, entrada: string, parcelas: string, taxaJuros: string)

  datatype SimulatorField = ValorMoto | Entrada | Parcelas | TaxaJuros

  /** The form as the simulator opens: no price, no down payment, 24 instalments at 1.5 %. */
  const InitialForm := SimulatorForm("", "", "24", "1.5")

  /** The form opens with the count and the rate the calculation falls back
      to, and with no price. */
  lemma InitialFormDefaults()
    ensures ParseMoney(InitialForm.valorMoto) == 0.0
    ensures InstalmentCount(InitialForm.parcelas) == 24
    ensures MonthlyRate(InitialForm.taxaJuros) == 0.015
  {
    var p, r := InitialForm.parcelas, InitialForm.taxaJuros;
    CountOption(p, 2, 4);
    RateIs(r, 1, '5', 1.5);
    PositivePercent(r);
  }

  /** The values offered by the instalment-count select. */
  const InstalmentOptions: seq<string> := ["12", "18", "24", "36", "48", "60"]

  /** The values offered by the monthly-rate select, in percent. */
  const RateOptions: seq<string> := ["1.0", "1.2", "1.5", "1.8", "2.0", "2.5"]

  function Get(f: SimulatorForm, field: SimulatorField): string {
    match field
    case ValorMoto => f.valorMoto
    case Entrada => f.entrada
    case Parcelas => f.parcelas
    case TaxaJuros => f.taxaJuros
  }

  /** Typing into, or selecting in, one input. */
  function UpdateField(f: SimulatorForm, field: SimulatorField, v: string): (r: SimulatorForm)
    ensures Get(r, field) == v
    ensures forall g :: g != field ==> Get(r, g) == Get(f, g)
  {
    match field
    case ValorMoto => f.(valorMoto := v)
    case Entrada => f.(entrada := v)
    case Parcelas => f.(parcelas := v)
    case TaxaJuros => f.(taxaJuros := v)
  }

  predicate IsDigitOrComma(c: char) {
    IsDigit(c) || c == ','
  }

  /** Removes every character that is neither a decimal digit nor a comma
      (the currency sign, spaces, thousands dots and any minus sign). */
  function KeepDigitsCommas(s: string): (r: string)
    ensures |r| <= |s|
    ensures forall i :: 0 <= i < |r| ==> IsDigitOrComma(r[i]) && r[i] in s
  {
    if |s| == 0 then []
    else if IsDigitOrComma(s[0]) then [s[0]] + KeepDigitsCommas(s[1..])
    else KeepDigitsCommas(s[1..])
  }

  /** Replaces the first comma, and only the first, by a decimal point. */
  function FirstCommaToDot(s: string): (r: string)
    ensures |r| == |s|
    ensures forall i :: 0 <= i < |s| && s[i] != ',' ==> r[i] == s[i]
    ensures forall i :: 0 <= i < |s| && s[i] == ',' ==> r[i] == ',' || r[i] == '.'
  {
    if |s| == 0 then []
    else if s[0] == ',' then "." + s[1..]
    else [s[0]] + FirstCommaToDot(s[1..])
  }

  /** A comma becomes a point exactly when no comma comes before it. */
  lemma {:induction false} FirstCommaOnly(s: string, i: nat)
    requires i < |s| && s[i] == ','
    ensures FirstCommaToDot(s)[i] == (if ',' in s[..i] then ',' else '.')
  {
    if s[0] == ',' {
      if i > 0 {
        assert s[..i][0] == ',';
      } else {
        assert s[..i] == [];
      }
    } else {
      FirstCommaOnly(s[1..], i - 1);
      assert s[..i] == [s[0]] + s[1..][..i - 1];
    }
  }

  /** A money field as the simulator reads it: sanitised, first comma made
      a decimal point, parsed, and `0` when nothing parses. */
  function ParseMoney(s: string): (v: real)
    ensures v >= 0.0
  {
    var t := FirstCommaToDot(KeepDigitsCommas(s));
    SanitisedUnsigned(s);
    OrReal(ParseFloat(t), 0.0)
  }

  /** Sanitised text holds only digits, commas and points. */
  predicate Unsigned(t: string) {
    forall i :: 0 <= i < |t| ==> IsDigit(t[i]) || t[i] == ',' || t[i] == '.'
  }

  lemma SanitisedUnsigned(s: string)
    ensures Unsigned(FirstCommaToDot(KeepDigitsCommas(s)))
    ensures ParseFloat(FirstCommaToDot(KeepDigitsCommas(s))).Some? ==>
      ParseFloat(FirstCommaToDot(KeepDigitsCommas(s))).value >= 0.0
  {
    var k := KeepDigitsCommas(s);
    var t := FirstCommaToDot(k);
    forall i | 0 <= i < |t|
      ensures IsDigit(t[i]) || t[i] == ',' || t[i] == '.'
    {
      assert IsDigitOrComma(k[i]);
    }
    UnsignedNotNegative(t);
  }

  /** Text without a sign never reads as a negative number. */
  lemma UnsignedNotNegative(t: string)
    requires Unsigned(t)
    ensures ParseFloat(t).Some? ==> ParseFloat(t).value >= 0.0
  {
    if |t| > 0 {
      assert !IsJsSpace(t[0]) && t[0] != '-';
      assert SpaceRun(t) == 0;
      assert TrimStart(t) == t;
    }
  }

  /** The instalment count: the parsed integer, or 24 when it is `NaN` or 0. */
  function InstalmentCount(s: string): (n: int)
    ensures n != 0
    ensures ParseInt(s).Some? && ParseInt(s).value != 0 ==> n == ParseInt(s).value
    ensures ParseInt(s).None? || ParseInt(s).value == 0 ==> n == 24
  {
    OrInt(ParseInt(s), 24)
  }

  /** The monthly rate as a fraction: the parsed percentage over 100, or
      0.015 when that is `NaN` or 0. */
  function MonthlyRate(s: string): (rate: real)
    ensures rate != 0.0
    ensures ParseFloat(s).Some? && ParseFloat(s).value != 0.0 ==> rate * 100.0 == ParseFloat(s).value
    ensures ParseFloat(s).None? || ParseFloat(s).value == 0.0 ==> rate == 0.015
  {
    var p := ParseFloat(s);
    OrReal(if p.Some? then Some(p.value / 100.0) else None, 0.015)
  }

  // ---------------------------------------------------------------------
  // The amortisation formula
  // ---------------------------------------------------------------------

  function Pow(x: real, n: nat): real {
    if n == 0 then 1.0 else x * Pow(x, n - 1)
  }

  /** `Math.pow(1 + rate, n)` for an integer exponent; `None` where it is
      infinite (base 0, negative exponent). */
  function Coefficient(rate: real, n: int): (g: Option<real>)
    ensures n >= 0 ==> g == Some(Pow(1.0 + rate, n))
    ensures g.None? <==> n < 0 && rate == -1.0
  {
    if n >= 0 then Some(Pow(1.0 + rate, n))
    else if 1.0 + rate == 0.0 then None
    else
      PowNonZero(1.0 + rate, -n);
      Some(1.0 / Pow(1.0 + rate, -n))
  }

  /** The outstanding balance after `k` monthly periods: each period adds
      the interest and subtracts one instalment. */
  function Balance(b: real, rate: real, pmt: real, k: nat): real
    decreases k
  {
    if k == 0 then b else Balance(Period(b, rate, pmt), rate, pmt, k - 1)
  }

  /** One month: interest accrues on the balance, then one instalment is paid. */
  function Period(b: real, rate: real, pmt: real): real {
    b * (1.0 + rate) - pmt
  }

  /** The level instalment for a financed amount, rate and coefficient `g = (1 + rate)^n`. */
  function Instalment(financed: real, rate: real, g: real): (pmt: real)
    requires g != 1.0
    ensures pmt * (g - 1.0) == financed * rate * g
  {
    financed * rate * g / (g - 1.0)
  }

  /** The result record the simulator displays. */
  datatype Quote = Quote(
    price: real,
    downPayment: real,
    financed: real,
    instalments: int,
    instalment: real,
    totalPaid: real,
    totalInterest: real,
    ratePercent: real)

  /** What pressing "calculate" yields: no price (the alert), a quote, or a
      quote whose formula divides by zero (JavaScript would show `NaN` or
      `Infinity`). */
  datatype Calculation = PriceMissing | Quoted(quote: Quote) | Undefined

  /** The formula on already parsed numbers. */
  function QuoteFor(price: real, down: real, n: int, rate: real): (c: Calculation)
    ensures c.PriceMissing? <==> price <= 0.0
    ensures c.Undefined? <==> price > 0.0 && (Coefficient(rate, n).None? || Coefficient(rate, n).value == 1.0)
    ensures c.Quoted? ==> c.quote.price == price && c.quote.downPayment == down && c.quote.instalments == n
    ensures c.Quoted? ==> c.quote.financed == price - down
    ensures c.Quoted? ==> c.quote.totalPaid == down + n as real * c.quote.instalment
    ensures c.Quoted? ==> c.quote.totalInterest == c.quote.totalPaid - price
    ensures c.Quoted? ==> c.quote.ratePercent == rate * 100.0
    ensures c.Quoted? && n >= 1 ==> Balance(c.quote.financed, rate, c.quote.instalment, n) == 0.0
  {
    if price <= 0.0 then PriceMissing
    else
      match Coefficient(rate, n)
      case None => Undefined
      case Some(g) =>
        if g == 1.0 then Undefined
        else
          var financed := price - down;
          var pmt := Instalment(financed, rate, g);
          var total := down + pmt * n as real;
          QuoteAmortises(financed, rate, n, g);
          Quoted(Quote(price, down, financed, n, pmt, total, total - price, rate * 100.0))
  }

  /** `calcularFinanciamento` on the form as typed. */
  function Calculate(f: SimulatorForm): (c: Calculation)
    ensures c.PriceMissing? <==> ParseMoney(f.valorMoto) == 0.0
    ensures c.Quoted? ==> c.quote.price > 0.0 && c.quote.downPayment >= 0.0 && c.quote.instalments != 0
    ensures c.Quoted? ==> c.quote.financed == c.quote.price - c.quote.downPayment
    ensures c.Quoted? ==> c.quote.price == ParseMoney(f.valorMoto) && c.quote.downPayment == ParseMoney(f.entrada)
    ensures c.Quoted? ==> c.quote.instalments == InstalmentCount(f.parcelas)
    ensures c.Quoted? ==> c.quote.ratePercent == MonthlyRate(f.taxaJuros) * 100.0
  {
    QuoteFor(ParseMoney(f.valorMoto), ParseMoney(f.entrada), InstalmentCount(f.parcelas), MonthlyRate(f.taxaJuros))
  }

  /** The displayed result after pressing "calculate": a missing price
      alerts and leaves the previous result on screen. */
  function Press(shown: Option<Calculation>, f: SimulatorForm): (r: Option<Calculation>)
    ensures Calculate(f).PriceMissing? ==> r == shown
    ensures !Calculate(f).PriceMissing? ==> r == Some(Calculate(f))
  {
    var c := Calculate(f);
    if c.PriceMissing? then shown else Some(c)
  }

  // ---------------------------------------------------------------------
  // Lemmas
  // ---------------------------------------------------------------------

  lemma {:induction false} PowNonZero(x: real, n: nat)
    requires x != 0.0
    ensures Pow(x, n) != 0.0
  {
    if n > 0 {
      PowNonZero(x, n - 1);
    }
  }

  lemma {:induction false} PowOfOne(n: nat)
    ensures Pow(1.0, n) == 1.0
  {
    if n > 0 {
      PowOfOne(n - 1);
    }
  }

  lemma PowStep(x: real, n: nat)
    requires n >= 1
    ensures Pow(x, n) == x * Pow(x, n - 1)
  {
  }

  lemma MulLeft(a: real, b: real, c: real)
    requires a > 0.0 && b < c
    ensures a * b < a * c
  {
  }

  lemma GrowthBase(rate: real, p: real)
    requires rate > 0.0 && p == 1.0 + rate
    ensures p > 1.0 && p - 1.0 < 1.0 * (rate * p)
  {
    MulLeft(rate, 1.0, p);
  }

  lemma GrowthStep(rate: real, m: real, g: real, p: real)
    requires rate > 0.0 && m >= 1.0 && g > 1.0 && g - 1.0 < m * (rate * g)
    requires p == g + rate * g
    ensures p > 1.0 && p - 1.0 < (m + 1.0) * (rate * p)
  {
    MulLeft(rate, 0.0, g);
    MulLeft(rate, g, p);
    MulLeft(m + 1.0, rate * g, rate * p);
  }

  /** Compound growth: with a positive rate the coefficient exceeds 1, and
      it exceeds 1 by less than `n` periods of simple interest on it. */
  lemma {:induction false} CoefficientGrowth(rate: real, n: nat)
    requires rate > 0.0 && n >= 1
    ensures Pow(1.0 + rate, n) > 1.0
    ensures Pow(1.0 + rate, n) - 1.0 < n as real * (rate * Pow(1.0 + rate, n))
  {
    var x := 1.0 + rate;
    PowStep(x, n);
    if n == 1 {
      GrowthBase(rate, Pow(x, n));
    } else {
      CoefficientGrowth(rate, n - 1);
      var g := Pow(x, n - 1);
      assert x * g == g + rate * g;
      GrowthStep(rate, (n - 1) as real, g, Pow(x, n));
    }
  }

  lemma ClosedFormStep(rate: real, b: real, pmt: real, b': real, g: real, bal: real)
    requires b' == b * (1.0 + rate) - pmt
    requires rate * bal == rate * b' * g - pmt * (g - 1.0)
    ensures rate * bal == rate * b * ((1.0 + rate) * g) - pmt * ((1.0 + rate) * g - 1.0)
  {
  }

  /** The balance after `k` periods in closed form (multiplied through by the rate). */
  lemma {:induction false} BalanceClosedForm(b: real, rate: real, pmt: real, k: nat)
    ensures rate * Balance(b, rate, pmt, k) == rate * b * Pow(1.0 + rate, k) - pmt * (Pow(1.0 + rate, k) - 1.0)
    decreases k
  {
    if k > 0 {
      var x := 1.0 + rate;
      var b' := Period(b, rate, pmt);
      BalanceClosedForm(b', rate, pmt, k - 1);
      PowStep(x, k);
      ClosedFormStep(rate, b, pmt, b', Pow(x, k - 1), Balance(b, rate, pmt, k));
    }
  }

  lemma SettledBalance(financed: real, rate: real, g: real, pmt: real, bal: real)
    requires rate != 0.0 && g != 1.0
    requires pmt == Instalment(financed, rate, g)
    requires rate * bal == rate * financed * g - pmt * (g - 1.0)
    ensures bal == 0.0
  {
    assert pmt * (g - 1.0) == financed * rate * g;
    assert rate * bal == 0.0;
  }

  /** Paying the formula's instalment for `n` periods leaves nothing owed. */
  lemma AmortisesToZero(financed: real, rate: real, n: nat)
    requires n >= 1 && Pow(1.0 + rate, n) != 1.0
    ensures Balance(financed, rate, Instalment(financed, rate, Pow(1.0 + rate, n)), n) == 0.0
  {
    var g := Pow(1.0 + rate, n);
    var pmt := Instalment(financed, rate, g);
    BalanceClosedForm(financed, rate, pmt, n);
    PowOfOne(n);
    var bal := Balance(financed, rate, pmt, n);
    assert rate != 0.0;
    assert rate * bal == rate * financed * g - pmt * (g - 1.0);
    SettledBalance(financed, rate, g, pmt, bal);
    assert bal == 0.0;
  }

  lemma QuoteAmortises(financed: real, rate: real, n: int, g: real)
    requires Coefficient(rate, n) == Some(g) && g != 1.0
    ensures n >= 1 ==> Balance(financed, rate, Instalment(financed, rate, g), n) == 0.0
  {
    if n >= 1 {
      AmortisesToZero(financed, rate, n);
    }
  }

  // ---------------------------------------------------------------------
  // The sanitiser
  // ---------------------------------------------------------------------

  /** Text that is already only digits and commas passes the filter unchanged. */
  lemma {:induction false} KeepClean(s: string)
    requires forall i :: 0 <= i < |s| ==> IsDigitOrComma(s[i])
    ensures KeepDigitsCommas(s) == s
  {
    if |s| > 0 {
      KeepClean(s[1..]);
      assert [s[0]] + s[1..] == s;
    }
  }

  /** Filtering twice is filtering once. */
  lemma KeepIdempotent(s: string)
    ensures KeepDigitsCommas(KeepDigitsCommas(s)) == KeepDigitsCommas(s)
  {
    KeepClean(KeepDigitsCommas(s));
  }

  /** The filter distributes over concatenation. */
  lemma {:induction false} KeepConcat(a: string, b: string)
    ensures KeepDigitsCommas(a + b) == KeepDigitsCommas(a) + KeepDigitsCommas(b)
  {
    if |a| == 0 {
      assert a + b == b;
    } else {
      assert (a + b)[0] == a[0];
      assert (a + b)[1..] == a[1..] + b;
      KeepConcat(a[1..], b);
    }
  }

  lemma NoCommaUnchanged(s: string)
    requires ',' !in s
    ensures FirstCommaToDot(s) == s
  {
  }

  /** A number with a decimal comma: only that comma becomes a point. */
  lemma {:induction false} CommaBecomesPoint(a: string, b: string)
    requires ',' !in a
    ensures FirstCommaToDot(a + ("," + b)) == a + ("." + b)
  {
    if |a| == 0 {
      CommaFirst(b);
    } else {
      assert forall j :: 0 <= j < |a| - 1 ==> a[1..][j] == a[j + 1];
      CommaBecomesPoint(a[1..], b);
      CommaStep(a, b);
    }
  }

  lemma CommaFirst(b: string)
    ensures FirstCommaToDot("," + b) == "." + b
  {
    assert ("," + b)[1..] == b;
  }

  lemma CommaStep(a: string, b: string)
    requires |a| > 0 && a[0] != ','
    requires FirstCommaToDot(a[1..] + ("," + b)) == a[1..] + ("." + b)
    ensures FirstCommaToDot(a + ("," + b)) == a + ("." + b)
  {
    var t := a[1..] + ("," + b);
    ConsSplit(a, "," + b);
    FirstCommaCons(a[0], t);
    ConsSplit(a, "." + b);
  }

  lemma ConsSplit(a: string, b: string)
    requires |a| > 0
    ensures a + b == [a[0]] + (a[1..] + b)
  {
    assert a == [a[0]] + a[1..];
  }

  lemma FirstCommaCons(c: char, t: string)
    requires c != ','
    ensures FirstCommaToDot([c] + t) == [c] + FirstCommaToDot(t)
  {
    assert ([c] + t)[1..] == t;
  }

  // ---------------------------------------------------------------------
  // Parsing the money fields
  // ---------------------------------------------------------------------

  /** Text with neither digits nor commas vanishes entirely. */
  lemma {:induction false} KeepNone(s: string)
    requires forall i :: 0 <= i < |s| ==> !IsDigitOrComma(s[i])
    ensures KeepDigitsCommas(s) == []
  {
    if |s| > 0 {
      KeepNone(s[1..]);
    }
  }

  /** A plain digit string parses to the number it denotes. */
  lemma ParseMoneyOfDigits(a: string)
    requires |a| > 0 && AllDigits(a)
    ensures ParseMoney(a) == DigitsValue(a) as real
  {
    KeepClean(a);
    NoCommaUnchanged(a);
    ParseFloatOfDigits(a, []);
    assert a + [] == a;
  }

  /** `digits,digits` parses as a decimal number, and parsing stops at any
      further comma: `rest` contributes nothing. */
  lemma ParseMoneyDecimalComma(a: string, b: string, rest: string)
    requires |a| > 0 && AllDigits(a) && AllDigits(b)
    requires forall i :: 0 <= i < |rest| ==> IsDigitOrComma(rest[i])
    requires |rest| == 0 || rest[0] == ','
    ensures ParseMoney(a + ("," + (b + rest))) == DigitsValue(a) as real + FracValue(b)
  {
    var s := a + ("," + (b + rest));
    CleanDecimal(a, b, rest);
    DigitsHaveNoComma(a);
    CommaBecomesPoint(a, b + rest);
    assert FirstCommaToDot(KeepDigitsCommas(s)) == a + ("." + (b + rest));
    ParseFloatDecimal(a, b, rest);
  }

  lemma DigitsHaveNoComma(a: string)
    requires AllDigits(a)
    ensures ',' !in a
  {
    assert forall i :: 0 <= i < |a| ==> a[i] != ',';
  }

  lemma CleanDecimal(a: string, b: string, rest: string)
    requires AllDigits(a) && AllDigits(b)
    requires forall i :: 0 <= i < |rest| ==> IsDigitOrComma(rest[i])
    ensures KeepDigitsCommas(a + ("," + (b + rest))) == a + ("," + (b + rest))
  {
    KeepClean(a);
    KeepClean(b);
    KeepClean(rest);
    KeepClean(",");
    KeepConcat(b, rest);
    KeepConcat(",", b + rest);
    KeepConcat(a, "," + (b + rest));
  }

  /** A field reads the same as its filtered text. */
  lemma ParseMoneyOfKept(s: string)
    ensures ParseMoney(KeepDigitsCommas(s)) == ParseMoney(s)
  {
    KeepIdempotent(s);
  }

  /** Without a single digit the field reads as 0. */
  lemma ParseMoneyWithoutDigits(s: string)
    requires forall i :: 0 <= i < |s| ==> !IsDigit(s[i])
    ensures ParseMoney(s) == 0.0
  {
    var k := KeepDigitsCommas(s);
    assert forall i :: 0 <= i < |k| ==> k[i] == ',';
    var t := FirstCommaToDot(k);
    assert forall i :: 0 <= i < |t| ==> t[i] == ',' || t[i] == '.';
    assert SpaceRun(t) == 0;
  }

  /** A price rendered as a whole number of reais reads back unchanged. */
  lemma ParseMoneyOfRendered(n: nat)
    ensures ParseMoney(NatToString(n)) == n as real
  {
    ParseMoneyOfDigits(NatToString(n));
  }

  /** The field's placeholder text reads as twenty-five thousand: the
      currency sign, the space and the thousands point are dropped and the
      comma is the decimal separator. */
  lemma ParsePlaceholderPrice(s: string)
    requires s == "R$ 25.000,00"
    ensures ParseMoney(s) == 25000.0
  {
    PlaceholderSanitised(s);
    var k := KeepDigitsCommas(s);
    var a, b := "25000", "00";
    PlaceholderSplit(k, a, b);
    ParseMoneyDecimalComma(a, b, "");
    ParseMoneyOfKept(s);
    PlaceholderDigits();
  }

  // The literal equations are kept in lemmas of their own so that they are
  // proved without the filter's and the parser's definitions in scope.
  lemma PlaceholderSplit(k: string, a: string, b: string)
    requires k == "25000,00" && a == "25000" && b == "00"
    ensures k == a + ("," + (b + ""))
  {
  }

  lemma PlaceholderDigits()
    ensures DigitsValue("25000") == 25000 && FracValue("00") == 0.0
  {
    assert "25000"[..4] == "2500" && "2500"[..3] == "250";
    assert "250"[..2] == "25" && "25"[..1] == "2" && "2"[..0] == "";
    assert "00"[1..] == "0" && "0"[1..] == "";
  }

  /** Dropping noise around two clean pieces leaves the pieces joined. */
  lemma KeepPieces(p: string, a: string, q: string, b: string)
    requires KeepDigitsCommas(p) == [] && KeepDigitsCommas(q) == []
    requires KeepDigitsCommas(a) == a && KeepDigitsCommas(b) == b
    ensures KeepDigitsCommas(p + (a + (q + b))) == a + b
  {
    KeepConcat(q, b);
    assert KeepDigitsCommas(q + b) == b;
    KeepConcat(a, q + b);
    assert KeepDigitsCommas(a + (q + b)) == a + b;
    KeepConcat(p, a + (q + b));
  }

  /** The placeholder keeps its digits and its comma, nothing else. */
  lemma PlaceholderSanitised(s: string)
    requires s == "R$ 25.000,00"
    ensures KeepDigitsCommas(s) == "25000,00"
  {
    var p, a, q, b := "R$ ", "25", ".", "000,00";
    assert s == p + (a + (q + b));
    KeepNone(p);
    KeepNone(q);
    KeepClean(a);
    KeepClean(b);
    KeepPieces(p, a, q, b);
    PlaceholderJoin(a, b);
  }

  // A literal equation of its own, as for PlaceholderSplit.
  lemma PlaceholderJoin(a: string, b: string)
    requires a == "25" && b == "000,00"
    ensures a + b == "25000,00"
  {
  }

  /** A minus sign is dropped by the sanitiser rather than read: "-1500"
      reads as 1500. */
  lemma MinusSignIsDropped(a: string)
    requires |a| > 0 && AllDigits(a)
    ensures ParseMoney("-" + a) == DigitsValue(a) as real
  {
    assert forall i :: 0 <= i < |a| ==> IsDigitOrComma(a[i]);
    DropNoise("-", a);
    ParseMoneyOfKept("-" + a);
    ParseMoneyOfDigits(a);
  }

  /** Noise in front of a clean piece is filtered away. */
  lemma DropNoise(m: string, a: string)
    requires forall i :: 0 <= i < |m| ==> !IsDigitOrComma(m[i])
    requires forall i :: 0 <= i < |a| ==> IsDigitOrComma(a[i])
    ensures KeepDigitsCommas(m + a) == a
  {
    KeepConcat(m, a);
    KeepNone(m);
    KeepClean(a);
  }

  // ---------------------------------------------------------------------
  // Properties of the quote
  // ---------------------------------------------------------------------

  lemma DivAboveOne(a: real, b: real)
    requires b > 0.0 && a > b
    ensures a / b > 1.0
  {
  }

  /** The instalment is the financed amount times a positive factor. */
  lemma InstalmentFactor(financed: real, rate: real, g: real)
    requires rate > 0.0 && g > 1.0
    ensures rate * g / (g - 1.0) > 0.0
    ensures Instalment(financed, rate, g) == financed * (rate * g / (g - 1.0))
  {
    MulLeft(rate, 0.0, g);
  }

  /** The formula is defined, and its instalment, once the rate is
      positive and there is at least one instalment. */
  lemma PositiveRateQuotes(price: real, down: real, n: int, rate: real)
    requires price > 0.0 && rate > 0.0 && n >= 1
    ensures Pow(1.0 + rate, n) > 1.0
    ensures QuoteFor(price, down, n, rate).Quoted?
    ensures QuoteFor(price, down, n, rate).quote.instalment == Instalment(price - down, rate, Pow(1.0 + rate, n))
  {
    CoefficientGrowth(rate, n);
  }

  lemma InterestArith(financed: real, rate: real, g: real, n: real, pmt: real, interest: real)
    requires rate > 0.0 && g > 1.0 && n >= 1.0 && g - 1.0 < n * (rate * g)
    requires pmt == Instalment(financed, rate, g)
    requires interest == n * pmt - financed
    ensures financed > 0.0 ==> pmt > 0.0 && interest > 0.0
    ensures financed == 0.0 ==> pmt == 0.0 && interest == 0.0
    ensures financed < 0.0 ==> pmt < 0.0 && interest < 0.0
  {
    InstalmentFactor(financed, rate, g);
    var c := rate * g / (g - 1.0);
    assert n * c == n * (rate * g) / (g - 1.0);
    DivAboveOne(n * (rate * g), g - 1.0);
    var k := n * c - 1.0;
    assert interest == financed * k;
    if financed > 0.0 {
      MulLeft(c, 0.0, financed);
      MulLeft(k, 0.0, financed);
    } else if financed < 0.0 {
      MulLeft(c, financed, 0.0);
      MulLeft(k, financed, 0.0);
    }
  }

  /** With a positive rate and at least one instalment the sign of the
      financed amount decides the sign of the instalment and of the total
      interest. When the down payment does not exceed the price the
      interest is never negative; a down payment above the price gives a
      negative instalment. */
  lemma InterestSign(price: real, down: real, n: int, rate: real)
    requires price > 0.0 && rate > 0.0 && n >= 1
    ensures QuoteFor(price, down, n, rate).Quoted?
    ensures var q := QuoteFor(price, down, n, rate).quote;
      && (down <= price ==> q.totalInterest >= 0.0)
      && (down == price ==> q.instalment == 0.0 && q.totalInterest == 0.0 && q.totalPaid == price)
      && (down < price ==> q.instalment > 0.0 && q.totalInterest > 0.0)
      && (down > price ==> q.instalment < 0.0 && q.totalInterest < 0.0)
  {
    PositiveRateQuotes(price, down, n, rate);
    CoefficientGrowth(rate, n);
    var q := QuoteFor(price, down, n, rate).quote;
    InterestArith(price - down, rate, Pow(1.0 + rate, n), n as real, q.instalment, q.totalInterest);
  }

  /** A larger down payment means a strictly smaller instalment. */
  lemma DownPaymentLowersInstalment(price: real, d1: real, d2: real, n: int, rate: real)
    requires price > 0.0 && rate > 0.0 && n >= 1 && d1 < d2
    ensures QuoteFor(price, d1, n, rate).Quoted? && QuoteFor(price, d2, n, rate).Quoted?
    ensures QuoteFor(price, d1, n, rate).quote.instalment > QuoteFor(price, d2, n, rate).quote.instalment
  {
    PositiveRateQuotes(price, d1, n, rate);
    PositiveRateQuotes(price, d2, n, rate);
    InstalmentMonotone(price - d1, price - d2, rate, Pow(1.0 + rate, n));
  }

  /** For a positive rate the instalment grows strictly with the amount. */
  lemma InstalmentMonotone(f1: real, f2: real, rate: real, g: real)
    requires rate > 0.0 && g > 1.0 && f1 > f2
    ensures Instalment(f1, rate, g) > Instalment(f2, rate, g)
  {
    InstalmentFactor(f1, rate, g);
    InstalmentFactor(f2, rate, g);
    MulLeft(rate * g / (g - 1.0), f2, f1);
  }

  // ---------------------------------------------------------------------
  // The select options
  // ---------------------------------------------------------------------

  /** A two-digit count with a nonzero value is read as that value. */
  lemma CountOption(s: string, d1: nat, d2: nat)
    requires 0 < d1 < 10 && d2 < 10 && s == [DigitChar(d1), DigitChar(d2)]
    ensures InstalmentCount(s) == 10 * d1 + d2
  {
    ParseIntOfDigits(s);
    assert s[..1] == [DigitChar(d1)];
    assert [DigitChar(d1)][..0] == [];
  }

  lemma InstalmentOptionCounts()
    ensures InstalmentCount("12") == 12 && InstalmentCount("18") == 18 && InstalmentCount("24") == 24
    ensures InstalmentCount("36") == 36 && InstalmentCount("48") == 48 && InstalmentCount("60") == 60
  {
    CountOption("12", 1, 2);
    CountOption("18", 1, 8);
    CountOption("24", 2, 4);
    CountOption("36", 3, 6);
    CountOption("48", 4, 8);
    CountOption("60", 6, 0);
  }

  lemma RateOption(a: nat, b: char, v: real)
    requires a < 10 && IsDigit(b)
    requires v == a as real + DigitOf(b) as real / 10.0
    ensures ParseFloat([DigitChar(a), '.', b]) == Some(v)
  {
    var whole, frac := [DigitChar(a)], [b];
    var t := whole + ("." + (frac + []));
    RateText(whole, frac);
    assert t == [DigitChar(a), '.', b];
    SingleDigit(DigitChar(a));
    SingleDigit(b);
    var w, f := DigitsValue(whole) as real, FracValue(frac);
    assert w + f == v;
    ParseFloatDecimal(whole, frac, []);
  }

  // The sequence equation is proved on its own, away from the parser.
  lemma RateText(whole: string, frac: string)
    requires |whole| == 1 && |frac| == 1
    ensures [whole[0], '.', frac[0]] == whole + ("." + (frac + []))
  {
  }

  /** A single digit read as a whole number and as a fraction. */
  lemma SingleDigit(c: char)
    requires IsDigit(c)
    ensures DigitsValue([c]) == DigitOf(c)
    ensures FracValue([c]) == DigitOf(c) as real / 10.0
  {
    assert [c][..0] == [];
    assert [c][1..] == [];
  }

  lemma RateOptionValues()
    ensures ParseFloat("1.0") == Some(1.0) && ParseFloat("1.2") == Some(1.2) && ParseFloat("1.5") == Some(1.5)
    ensures ParseFloat("1.8") == Some(1.8) && ParseFloat("2.0") == Some(2.0) && ParseFloat("2.5") == Some(2.5)
  {
    RateOption(1, '0', 1.0);
    RateOption(1, '2', 1.2);
    RateOption(1, '5', 1.5);
    RateOption(1, '8', 1.8);
    RateOption(2, '0', 2.0);
    RateOption(2, '5', 2.5);
  }

  /** Every offered instalment count is read as itself. */
  lemma OfferedCount(s: string)
    requires s in InstalmentOptions
    ensures InstalmentCount(s) in {12, 18, 24, 36, 48, 60}
  {
    assert s == InstalmentOptions[0] || s == InstalmentOptions[1] || s == InstalmentOptions[2]
        || s == InstalmentOptions[3] || s == InstalmentOptions[4] || s == InstalmentOptions[5];
    InstalmentOptionCounts();
  }

  /** Every offered rate is read as a positive rate whose percentage is
      the option's number. */
  lemma OfferedRate(s: string)
    requires s in RateOptions
    ensures ParseFloat(s).Some? && ParseFloat(s).value in {1.0, 1.2, 1.5, 1.8, 2.0, 2.5}
    ensures MonthlyRate(s) > 0.0 && MonthlyRate(s) * 100.0 == ParseFloat(s).value
  {
    var i :| 0 <= i < |RateOptions| && RateOptions[i] == s;
    RateAt(i);
    PositivePercent(s);
  }

  lemma RateAt(i: nat)
    requires i < |RateOptions|
    ensures ParseFloat(RateOptions[i]).Some? && ParseFloat(RateOptions[i]).value in {1.0, 1.2, 1.5, 1.8, 2.0, 2.5}
  {
    var s := RateOptions[i];
    if i == 0 {
      RateIs(s, 1, '0', 1.0);
    } else if i == 1 {
      RateIs(s, 1, '2', 1.2);
    } else if i == 2 {
      RateIs(s, 1, '5', 1.5);
    } else if i == 3 {
      RateIs(s, 1, '8', 1.8);
    } else if i == 4 {
      RateIs(s, 2, '0', 2.0);
    } else {
      RateIs(s, 2, '5', 2.5);
    }
  }

  lemma RateIs(s: string, a: nat, b: char, v: real)
    requires a < 10 && IsDigit(b) && s == [DigitChar(a), '.', b]
    requires v == a as real + DigitOf(b) as real / 10.0
    ensures ParseFloat(s) == Some(v)
  {
    RateOption(a, b, v);
  }

  /** A typed rate of −200 % makes the base `1 + r` equal to −1, so every
      even count gives a coefficient of exactly 1 and no quote. */
  lemma NegativeRateEvenCountUndefined(taxa: string, price: real, down: real, n: int)
    requires taxa == "-200" && price > 0.0 && n >= 0 && n % 2 == 0
    ensures MonthlyRate(taxa) == -2.0
    ensures QuoteFor(price, down, n, MonthlyRate(taxa)).Undefined?
  {
    MinusTwoHundred(taxa);
    EvenPowerOfMinusOne(n);
    assert Coefficient(-2.0, n) == Some(1.0);
  }

  /** `parseFloat("-200") / 100` is −2. */
  lemma MinusTwoHundred(s: string)
    requires s == "-200"
    ensures MonthlyRate(s) == -2.0
  {
    var a := [DigitChar(2), DigitChar(0), DigitChar(0)];
    assert s[1..] == a;
    assert a[..2][..1] == [DigitChar(2)] && a[..2][..1][..0] == [];
    ParseFloatOfNegatedDigits(s);
  }

  lemma {:induction false} EvenPowerOfMinusOne(n: nat)
    requires n % 2 == 0
    ensures Pow(-1.0, n) == 1.0
  {
    if n > 0 {
      EvenPowerOfMinusOne(n - 2);
      assert Pow(-1.0, n - 1) == -1.0 * Pow(-1.0, n - 2);
    }
  }

  /** A positive parsed percentage becomes the monthly rate unchanged. */
  lemma PositivePercent(s: string)
    requires ParseFloat(s).Some? && ParseFloat(s).value > 0.0
    ensures MonthlyRate(s) > 0.0 && MonthlyRate(s) * 100.0 == ParseFloat(s).value
  {
  }

  /** Whatever the selects hold, a positive price always yields a quote:
      the count is one of the offered ones, and the stored rate percentage
      is exactly the option's number. */
  lemma SelectOptionsAlwaysQuote(f: SimulatorForm)
    requires f.parcelas in InstalmentOptions && f.taxaJuros in RateOptions
    requires ParseMoney(f.valorMoto) > 0.0
    ensures Calculate(f).Quoted?
    ensures Calculate(f).quote.instalments in {12, 18, 24, 36, 48, 60}
    ensures Some(Calculate(f).quote.ratePercent) == ParseFloat(f.taxaJuros)
    ensures Calculate(f).quote.ratePercent in {1.0, 1.2, 1.5, 1.8, 2.0, 2.5}
  {
    OfferedCount(f.parcelas);
    OfferedRate(f.taxaJuros);
    PositiveRateQuotes(ParseMoney(f.valorMoto), ParseMoney(f.entrada), InstalmentCount(f.parcelas), MonthlyRate(f.taxaJuros));
  }
}

=== FILE: home_page.dfy ===
/** The landing page: it sends a signed-out visitor to the sign-in page and a
    signed-in one to the panel of their role, and otherwise shows whichever
    screen comes first in its render ladder. */
module HomePage {
  import opened Options
  import opened Roles
  import opened AuthContext

  /** The sign-in redirect effect. */
  function AuthRedirect(s: AuthState): (r: Option<Route>)
    ensures r.Some? <==> (s.hydrated && !s.loading && s.user.None? && s.configured)
    ensures r.Some? ==> r.value == AuthPage
  {
    if s.hydrated && !s.loading && s.user.None? && s.configured then Some(AuthPage) else None
  }

  /** The role redirect effect: a known role goes to its panel, any other
      stored role stays. */
  function RoleRedirect(s: AuthState): (r: Option<Route>)
    ensures r.Some? <==> (s.hydrated && s.profile.Some? && s.user.Some? && ParseRole(s.profile.value.role).Some?)
    ensures r.Some? ==> Path(r.value) == "/" + s.profile.value.role
    ensures r.Some? ==> r.value != Home && r.value != AuthPage
  {
    if s.hydrated && s.profile.Some? && s.user.Some? then
      match ParseRole(s.profile.value.role)
      case Some(role) => Some(PanelOf(role))
      case None => None
    else None
  }

  /** The two effects never both fire. */
  lemma RedirectsExclusive(s: AuthState)
    ensures AuthRedirect(s).None? || RoleRedirect(s).None?
  {
  }

  /** Each role lands on its own panel. */
  lemma RoleLanding(s: AuthState, role: Role)
    requires s.hydrated && s.user.Some? && s.profile.Some? && s.profile.value.role == RoleName(role)
    ensures RoleRedirect(s) == Some(PanelOf(role))
  {
    ParseRoleName(role);
  }

  datatype Screen = InitSpinner | SetupCard | LoadingSpinner | Blank | RoleCards

  /** The render ladder, first match wins. */
  function Render(s: AuthState): (v: Screen)
    ensures v == InitSpinner <==> !s.hydrated
    ensures v == SetupCard <==> (s.hydrated && !s.configured)
    ensures v == LoadingSpinner <==> (s.hydrated && s.configured && s.loading)
    ensures v == Blank <==> (s.hydrated && s.configured && !s.loading && s.user.None?)
    ensures v == RoleCards <==> (s.hydrated && s.configured && !s.loading && s.user.Some?)
  {
    if !s.hydrated then InitSpinner
    else if !s.configured then SetupCard
    else if s.loading then LoadingSpinner
    else if s.user.None? then Blank
    else RoleCards
  }

  /** The blank screen is always on its way to the sign-in page, and the
      setup card never is. */
  lemma BlankMeansSignIn(s: AuthState)
    ensures Render(s) == Blank ==> AuthRedirect(s) == Some(AuthPage)
    ensures Render(s) == SetupCard ==> AuthRedirect(s).None?
  {
  }

  /** Before hydration nothing happens: no redirect and the start-up spinner,
      whatever else the state says. */
  lemma NothingBeforeHydration(s: AuthState)
    requires !s.hydrated
    ensures Render(s) == InitSpinner && AuthRedirect(s).None? && RoleRedirect(s).None?
  {
  }

  /** An unconfigured installation shows the setup card once hydrated and
      redirects nowhere. */
  lemma UnconfiguredShowsSetup(hasBackend: bool)
    ensures var s := Setup(Hydrate(Initial, false), hasBackend).state;
      Render(s) == SetupCard && AuthRedirect(s).None? && RoleRedirect(s).None?
  {
  }
}

=== FILE: js_numbers.dfy ===
/** The JavaScript number built-ins the application relies on, restricted
    to the inputs it gives them and stated over unbounded `int`/`real`:
    `parseFloat`, `parseInt` (radix 10), `Math.round` and the decimal
    rendering of an integer (`String(n)`, template interpolation). */
module JsNumbers {
  import opened Options

  predicate IsDigit(c: char) {
    '0' <= c <= '9'
  }

  predicate AllDigits(s: string) {
    forall i :: 0 <= i < |s| ==> IsDigit(s[i])
  }

  function DigitOf(c: char): (d: nat)
    requires IsDigit(c)
    ensures d < 10
  {
    c as int - '0' as int
  }

  function DigitChar(d: nat): (c: char)
    requires d < 10
    ensures IsDigit(c) && DigitOf(c) == d
  {
    ('0' as int + d) as char
  }

  function Pow10(n: nat): (r: nat)
    ensures r >= 1
  {
    if n == 0 then 1 else 10 * Pow10(n - 1)
  }

  /** The code points ECMAScript counts as WhiteSpace or LineTerminator;
      `parseFloat` and `parseInt` skip them at the start of their input. */
  predicate IsJsSpace(c: char) {
    || c == '\t' || c == '\n' || c == '\U{000B}' || c == '\U{000C}' || c == '\r'
    || c == ' ' || c == '\U{00A0}' || c == '\U{1680}'
    || ('\U{2000}' <= c <= '\U{200A}')
    || c == '\U{2028}' || c == '\U{2029}' || c == '\U{202F}' || c == '\U{205F}'
    || c == '\U{3000}' || c == '\U{FEFF}'
  }

  /** The number of white-space characters at the start of `s`. */
  function SpaceRun(s: string): (k: nat)
    ensures k <= |s|
    ensures forall i :: 0 <= i < k ==> IsJsSpace(s[i])
    ensures k == |s| || !IsJsSpace(s[k])
  {
    if |s| == 0 || !IsJsSpace(s[0]) then 0 else 1 + SpaceRun(s[1..])
  }

  /** `s` without its leading white space. */
  function TrimStart(s: string): string {
    s[SpaceRun(s)..]
  }

  /** The number of decimal digits at the start of `s`. */
  function DigitRun(s: string): (k: nat)
    ensures k <= |s|
    ensures forall i :: 0 <= i < k ==> IsDigit(s[i])
    ensures k == |s| || !IsDigit(s[k])
  {
    if |s| == 0 || !IsDigit(s[0]) then 0 else 1 + DigitRun(s[1..])
  }

  /** The longest prefix of `s` made of decimal digits. */
  function DigitPrefix(s: string): (r: string)
    ensures AllDigits(r)
  {
    s[..DigitRun(s)]
  }

  /** The natural number a string of decimal digits denotes. */
  function DigitsValue(s: string): (n: nat)
    requires AllDigits(s)
    ensures n < Pow10(|s|)
  {
    if |s| == 0 then 0
    else DigitsValue(s[..|s| - 1]) * 10 + DigitOf(s[|s| - 1])
  }

  /** The value of the digits after a decimal point: `0.d1d2d3...`. */
  function FracValue(s: string): (v: real)
    requires AllDigits(s)
    ensures 0.0 <= v < 1.0
    ensures |s| == 0 ==> v == 0.0
  {
    if |s| == 0 then 0.0
    else (DigitOf(s[0]) as real + FracValue(s[1..])) / 10.0
  }

  /** The digits after the decimal point that follows the integer digits
      of `t`, if there is such a point. */
  function FracDigits(t: string): (b: string)
    ensures AllDigits(b)
  {
    var rest := t[|DigitPrefix(t)|..];
    if |rest| > 0 && rest[0] == '.' then DigitPrefix(rest[1..]) else []
  }

  /** `parseFloat` after the sign: digits, optionally a point and more
      digits. With neither an integer nor a fraction digit it is `NaN`. */
  function ParseUnsigned(t: string): (r: Option<real>)
    ensures r.Some? <==> (|t| > 0 && IsDigit(t[0])) || (|t| > 1 && t[0] == '.' && IsDigit(t[1]))
    ensures r.Some? ==> r.value >= 0.0
  {
    var a := DigitPrefix(t);
    var b := FracDigits(t);
    if |a| == 0 && |b| == 0 then None
    else Some(DigitsValue(a) as real + FracValue(b))
  }

  /** `parseFloat(s)`: `None` is `NaN`. */
  function ParseFloat(s: string): (r: Option<real>)
    ensures r.Some? && r.value < 0.0 ==> |TrimStart(s)| > 0 && TrimStart(s)[0] == '-'
  {
    var t := TrimStart(s);
    if |t| > 0 && t[0] == '-' then
      var m := ParseUnsigned(t[1..]);
      if m.Some? then Some(-m.value) else None
    else if |t| > 0 && t[0] == '+' then ParseUnsigned(t[1..])
    else ParseUnsigned(t)
  }

  /** `parseInt(s)` with the default radix on a decimal literal: `None` is
      `NaN`. */
  function ParseInt(s: string): (r: Option<int>)
    ensures r.Some? && r.value < 0 ==> |TrimStart(s)| > 0 && TrimStart(s)[0] == '-'
  {
    var t := TrimStart(s);
    if |t| > 0 && (t[0] == '-' || t[0] == '+') then
      var ds := DigitPrefix(t[1..]);
      if |ds| == 0 then None
      else if t[0] == '-' then Some(-(DigitsValue(ds) as int))
      else Some(DigitsValue(ds))
    else
      var ds := DigitPrefix(t);
      if |ds| == 0 then None else Some(DigitsValue(ds))
  }

  /** `x || fallback` on a number: `NaN` (`None`) and `0` are falsy. */
  function OrReal(x: Option<real>, fallback: real): (r: real)
    ensures (x.Some? && x.value != 0.0) ==> r == x.value
    ensures (x.None? || x.value == 0.0) ==> r == fallback
  {
    if x.Some? && x.value != 0.0 then x.value else fallback
  }

  /** `x || fallback` on an integer-valued number. */
  function OrInt(x: Option<int>, fallback: int): (r: int)
    ensures (x.Some? && x.value != 0) ==> r == x.value
    ensures (x.None? || x.value == 0) ==> r == fallback
  {
    if x.Some? && x.value != 0 then x.value else fallback
  }

  /** `Math.round(x)`: the nearest integer, halves rounding up. */
  function Round(x: real): (r: int)
    ensures r as real - 0.5 <= x < r as real + 0.5
  {
    (x + 0.5).Floor
  }

  /** Rounding a whole number gives it back. */
  lemma RoundOfWhole(k: int)
    ensures Round(k as real) == k
  {
  }

  /** The decimal rendering of a natural number, without leading zeros. */
  function NatToString(n: nat): (s: string)
    ensures |s| >= 1 && AllDigits(s)
    ensures |s| == 1 || s[0] != '0'
    ensures DigitsValue(s) == n
  {
    if n < 10 then [DigitChar(n)]
    else
      var s := NatToString(n / 10) + [DigitChar(n % 10)];
      assert s[..|s| - 1] == NatToString(n / 10);
      s
  }

  /** The decimal rendering of an integer, as `String(i)` gives it. */
  function IntToString(i: int): (s: string)
    ensures |s| >= 1
    ensures i < 0 <==> s[0] == '-'
  {
    if i < 0 then "-" + NatToString(-i) else NatToString(i)
  }

  /** The digit run of `a + t` is exactly `a` when `t` does not continue it. */
  lemma DigitRunOfDigits(a: string, t: string)
    requires AllDigits(a)
    requires |t| == 0 || !IsDigit(t[0])
    ensures DigitRun(a + t) == |a|
    ensures DigitPrefix(a + t) == a
  {
    assert (a + t)[..|a|] == a;
  }

  lemma NoLeadingSpace(s: string)
    requires |s| > 0 && (IsDigit(s[0]) || s[0] == '-')
    ensures TrimStart(s) == s
  {
    assert !IsJsSpace(s[0]);
  }

  /** `parseInt` reads back exactly the integer `String` rendered. */
  lemma ParseIntOfIntToString(i: int)
    ensures ParseInt(IntToString(i)) == Some(i)
  {
    var s := IntToString(i);
    NoLeadingSpace(s);
    if i < 0 {
      var d := NatToString(-i);
      assert s[1..] == d + [];
      DigitRunOfDigits(d, []);
    } else {
      assert s == s + [];
      DigitRunOfDigits(s, []);
    }
  }

  /** A plain digit string is read by `parseInt` as the number it denotes. */
  lemma ParseIntOfDigits(a: string)
    requires |a| > 0 && AllDigits(a)
    ensures ParseInt(a) == Some(DigitsValue(a))
  {
    NoLeadingSpace(a);
    assert a == a + [];
    DigitRunOfDigits(a, []);
  }

  /** `digits` followed by anything that is not a digit or a point parses
      as the integer the digits denote. */
  lemma ParseFloatOfDigits(a: string, rest: string)
    requires |a| > 0 && AllDigits(a)
    requires |rest| == 0 || (!IsDigit(rest[0]) && rest[0] != '.')
    ensures ParseFloat(a + rest) == Some(DigitsValue(a) as real)
  {
    var t := a + rest;
    assert t[0] == a[0];
    IntegerParts(a, rest);
    UnsignedInteger(t, a);
    UnsignedStart(t);
  }

  /** The sign of `parseFloat`: after leading space, a minus negates the
      unsigned reading of the rest (`NaN` stays `NaN`), and a plus is
      skipped. */
  lemma ParseFloatSign(s: string)
    ensures |TrimStart(s)| > 0 && TrimStart(s)[0] == '-' ==>
      ParseFloat(s) == (var m := ParseUnsigned(TrimStart(s)[1..]); if m.Some? then Some(-m.value) else None)
    ensures |TrimStart(s)| > 0 && TrimStart(s)[0] == '+' ==> ParseFloat(s) == ParseUnsigned(TrimStart(s)[1..])
  {
  }

  /** A minus sign before a digit string negates the number it denotes. */
  lemma ParseFloatOfNegatedDigits(s: string)
    requires |s| > 1 && s[0] == '-' && AllDigits(s[1..])
    ensures ParseFloat(s) == Some(-(DigitsValue(s[1..]) as real))
  {
    assert TrimStart(s) == s by { assert !IsJsSpace(s[0]); }
    DigitsAlone(s[1..]);
    ParseFloatSign(s);
  }

  lemma DigitsAlone(a: string)
    requires |a| > 0 && AllDigits(a)
    ensures IsDigit(a[0])
    ensures ParseUnsigned(a) == Some(DigitsValue(a) as real)
  {
    assert a == a + [];
    IntegerParts(a, []);
    UnsignedInteger(a, a);
  }

  lemma UnsignedInteger(t: string, a: string)
    requires DigitPrefix(t) == a && FracDigits(t) == [] && |a| > 0
    ensures ParseUnsigned(t) == Some(DigitsValue(a) as real)
  {
    UnsignedParts(t, a, []);
  }

  lemma IntegerParts(a: string, rest: string)
    requires AllDigits(a)
    requires |rest| == 0 || (!IsDigit(rest[0]) && rest[0] != '.')
    ensures DigitPrefix(a + rest) == a
    ensures FracDigits(a + rest) == []
  {
    DigitRunOfDigits(a, rest);
    assert (a + rest)[|a|..] == rest;
  }

  lemma DecimalParts(a: string, b: string, rest: string)
    requires |a| > 0 && AllDigits(a) && AllDigits(b)
    requires |rest| == 0 || !IsDigit(rest[0])
    ensures DigitPrefix(a + ("." + (b + rest))) == a
    ensures FracDigits(a + ("." + (b + rest))) == b
  {
    var tail := "." + (b + rest);
    var t := a + tail;
    DigitRunOfDigits(a, tail);
    assert t[|a|..] == tail;
    assert tail[1..] == b + rest;
    DigitRunOfDigits(b, rest);
  }

  /** `digits.digits` followed by anything that does not start with a
      digit parses as the decimal number it denotes. */
  lemma ParseFloatDecimal(a: string, b: string, rest: string)
    requires |a| > 0 && AllDigits(a) && AllDigits(b)
    requires |rest| == 0 || !IsDigit(rest[0])
    ensures ParseFloat(a + ("." + (b + rest))) == Some(DigitsValue(a) as real + FracValue(b))
  {
    var t := a + ("." + (b + rest));
    assert t[0] == a[0];
    UnsignedStart(t);
    DecimalParts(a, b, rest);
    UnsignedParts(t, a, b);
  }

  /** Input that starts with a digit has no white space or sign to skip. */
  lemma UnsignedStart(t: string)
    requires |t| > 0 && IsDigit(t[0])
    ensures ParseFloat(t) == ParseUnsigned(t)
  {
    NoLeadingSpace(t);
  }

  lemma UnsignedParts(t: string, a: string, b: string)
    requires DigitPrefix(t) == a && FracDigits(t) == b && |a| > 0
    ensures ParseUnsigned(t) == Some(DigitsValue(a) as real + FracValue(b))
  {
  }
}

=== FILE: lead_form.dfy ===
/** The referrer's lead-registration form: seven text fields, of which name
    and phone are required, and the lead record built on submission.  The
    clock is a parameter: `now` is the millisecond timestamp used as the id
    and `nowIso` its ISO-8601 text. */
module LeadForm {
  import opened Options

  datatype LeadFields = LeadFields(
    nome: string,
    telefone: string,
    email: string,
    cidade: string,
    interesse: string,
    orcamento: string,
    observacoes: string)

  datatype Field = Nome | Telefone | Email | Cidade | Interesse | Orcamento | Observacoes

  const EmptyForm := LeadFields("", "", "", "", "", "", "")

  function Get(f: LeadFields, field: Field): string {
    match field
    case Nome => f.nome
    case Telefone => f.telefone
    case Email => f.email
    case Cidade => f.cidade
    case Interesse => f.interesse
    case Orcamento => f.orcamento
    case Observacoes => f.observacoes
  }

  /** Every field of the initial form is empty. */
  lemma EmptyFormIsEmpty(field: Field)
    ensures Get(EmptyForm, field) == ""
  {
  }

  /** Typing into one field. */
  function HandleChange(f: LeadFields, field: Field, v: string): (r: LeadFields)
    ensures Get(r, field) == v
    ensures forall g: Field :: g != field ==> Get(r, g) == Get(f, g)
  {
    match field
    case Nome => f.(nome := v)
    case Telefone => f.(telefone := v)
    case Email => f.(email := v)
    case Cidade => f.(cidade := v)
    case Interesse => f.(interesse := v)
    case Orcamento => f.(orcamento := v)
    case Observacoes => f.(observacoes := v)
  }

  /** Two forms agreeing on every field are the same form. */
  lemma FieldsDetermineForm(f: LeadFields, g: LeadFields)
    requires forall field: Field :: Get(f, field) == Get(g, field)
    ensures f == g
  {
    assert Get(f, Nome) == Get(g, Nome) && Get(f, Telefone) == Get(g, Telefone);
    assert Get(f, Email) == Get(g, Email) && Get(f, Cidade) == Get(g, Cidade);
    assert Get(f, Interesse) == Get(g, Interesse) && Get(f, Orcamento) == Get(g, Orcamento);
    assert Get(f, Observacoes) == Get(g, Observacoes);
  }

  /** Edits to different fields commute. */
  lemma ChangesCommute(f: LeadFields, a: Field, u: string, b: Field, v: string)
    requires a != b
    ensures HandleChange(HandleChange(f, a, u), b, v) == HandleChange(HandleChange(f, b, v), a, u)
  {
    var l := HandleChange(HandleChange(f, a, u), b, v);
    var r := HandleChange(HandleChange(f, b, v), a, u);
    forall field: Field
      ensures Get(l, field) == Get(r, field)
    {
    }
    FieldsDetermineForm(l, r);
  }

  /** A later edit of a field replaces an earlier one. */
  lemma LastChangeWins(f: LeadFields, a: Field, u: string, v: string)
    ensures HandleChange(HandleChange(f, a, u), a, v) == HandleChange(f, a, v)
  {
    var l := HandleChange(HandleChange(f, a, u), a, v);
    var r := HandleChange(f, a, v);
    forall field: Field
      ensures Get(l, field) == Get(r, field)
    {
    }
    FieldsDetermineForm(l, r);
  }

  /** A lead as handed to the panel: the form's fields plus what submission
      adds.  `comissao` is the commission a converted lead may carry; the
      form never sets it. */
  datatype Lead = Lead(
    fields: LeadFields,
    id: int,
    status: string,
    dataCadastro: string,
    indicadorId: string,
    comissao: Option<real>)

  const NewStatus := "novo"
  const CurrentUser := "current_user"

  /** The fields a submission cannot leave empty. */
  const RequiredFields: set<Field> := {Nome, Telefone}

  function Required(f: LeadFields): (ok: bool)
    ensures ok <==> forall field :: field in RequiredFields ==> Get(f, field) != ""
  {
    f.nome != "" && f.telefone != ""
  }

  datatype Submission = Rejected | Submitted(lead: Lead)

  /** Submitting: rejected (with an alert) unless name and phone are filled
      in, otherwise a new lead carrying every field as typed. */
  function Submit(f: LeadFields, now: int, nowIso: string): (r: Submission)
    ensures r.Rejected? <==> f.nome == "" || f.telefone == ""
    ensures r.Submitted? ==> forall field: Field :: Get(r.lead.fields, field) == Get(f, field)
    ensures r.Submitted? ==> r.lead.status == "novo" && r.lead.indicadorId == "current_user"
    ensures r.Submitted? ==> r.lead.id == now && r.lead.dataCadastro == nowIso && r.lead.comissao.None?
  {
    if !Required(f) then Rejected
    else Submitted(Lead(f, now, NewStatus, nowIso, CurrentUser, None))
  }

  /** The five optional fields never decide whether the submit handler
      accepts a submission; the browser's own checks on the form are not
      part of this. */
  lemma OptionalFieldsNeverBlock(f: LeadFields, field: Field, v: string, now: int, nowIso: string)
    requires field != Nome && field != Telefone
    ensures Submit(HandleChange(f, field, v), now, nowIso).Rejected? == Submit(f, now, nowIso).Rejected?
  {
    assert Get(HandleChange(f, field, v), Nome) == f.nome;
    assert Get(HandleChange(f, field, v), Telefone) == f.telefone;
  }

  /** The untouched form is rejected; filling in name and phone alone is
      enough, and the lead then has every other field empty. */
  lemma MinimalSubmission(nome: string, telefone: string, now: int, nowIso: string)
    requires nome != "" && telefone != ""
    ensures Submit(EmptyForm, now, nowIso).Rejected?
    ensures var f := HandleChange(HandleChange(EmptyForm, Nome, nome), Telefone, telefone);
      var r := Submit(f, now, nowIso);
      r.Submitted? && r.lead.fields == LeadFields(nome, telefone, "", "", "", "", "")
  {
  }
}

=== FILE: navbar.dfy ===
/** The navigation bar: the role badge (label and colour), the role switcher
    and the sign-out button.  Its `loading`, `message` and `error` are the
    bar's own state; user and profile come from the authentication context.
    The bar delays its redirect after a switch; here the redirect is the
    route the switch ends on. */
module Navbar {
  import opened Options
  import opened Roles
  import opened AuthContext
  import HomePage

  /** The text of the role badge; an unknown role is shown as stored. */
  function RoleLabel(role: string): (text: string)
    ensures text == role <==> ParseRole(role).None?
    ensures ParseRole(role).Some? ==> text in {"Administrador", "Vendedor", "Indicador"}
    ensures role == "admin" ==> text == "Administrador"
    ensures role == "vendedor" ==> text == "Vendedor"
    ensures role == "indicador" ==> text == "Indicador"
  {
    if role == "admin" then "Administrador"
    else if role == "vendedor" then "Vendedor"
    else if role == "indicador" then "Indicador"
    else role
  }

  /** Different roles get different labels. */
  lemma LabelsDistinct(a: Role, b: Role)
    ensures RoleLabel(RoleName(a)) == RoleLabel(RoleName(b)) <==> a == b
  {
  }

  const Gray := "bg-gray-100 text-gray-800"

  /** The classes of the role badge; an unknown role is gray. */
  function RoleColor(role: string): (classes: string)
    ensures classes == Gray <==> ParseRole(role).None?
  {
    if role == "admin" then "bg-purple-100 text-purple-800"
    else if role == "vendedor" then "bg-green-100 text-green-800"
    else if role == "indicador" then "bg-blue-100 text-blue-800"
    else Gray
  }

  /** Different roles get different colours. */
  lemma ColorsDistinct(a: Role, b: Role)
    ensures RoleColor(RoleName(a)) == RoleColor(RoleName(b)) <==> a == b
  {
  }

  /** The bar is drawn only for a signed-in user with a profile, so never
      while the home page is sending the visitor to sign in. */
  function Visible(s: AuthState): (shown: bool)
    ensures shown ==> s.user.Some? && s.profile.Some?
    ensures shown ==> HomePage.AuthRedirect(s).None?
  {
    s.user.Some? && s.profile.Some?
  }

  /** Once a reported session has loaded its profile row, the bar appears. */
  lemma SignInShowsBar(s: AuthState, u: User, fromListener: bool, row: Profile)
    ensures Visible(ProfileFetched(SessionReport(s, Some(u), fromListener).state, true, Some(row)))
  {
    SignInLoadsProfile(s, u, fromListener, row);
  }

  datatype NavState = NavState(loading: bool, message: string, error: string)

  const Idle := NavState(false, "", "")

  function SuccessMessage(newRole: Role): string {
    "Papel alterado para " + RoleName(newRole) + " com sucesso!"
  }

  const SwitchError := "Erro ao trocar papel. Tente novamente."

  /** The bar while a switch is under way. */
  function Begin(n: NavState): (m: NavState)
    ensures m.loading && m.message == "" && m.error == ""
  {
    NavState(true, "", "")
  }

  datatype SwitchResult = SwitchResult(nav: NavState, auth: AuthState, route: Option<Route>)

  /** Picking `newRole` in the switcher.  `hasBackend` and `backendOk` are
      passed on to the context's switch. */
  function HandleRoleSwitch(n: NavState, s: AuthState, hasBackend: bool, newRole: Role, backendOk: bool): (r: SwitchResult)
    ensures s.profile.None? || s.profile.value.role == RoleName(newRole) ==> r == SwitchResult(n, s, None)
    ensures s.profile.Some? && s.profile.value.role != RoleName(newRole) ==>
      !r.nav.loading && r.auth == SwitchRole(s, hasBackend, newRole, backendOk).state &&
      (r.nav.error == "" <==> r.nav.message != "") &&
      (r.nav.message != "" ==> r.nav.message == SuccessMessage(newRole) && r.route == Some(PanelOf(newRole))) &&
      (r.nav.error != "" ==> r.nav.error == SwitchError && r.route.None? && r.auth == s)
  {
    if s.profile.None? || s.profile.value.role == RoleName(newRole) then SwitchResult(n, s, None)
    else
      var busy := Begin(n);
      var step := SwitchRole(s, hasBackend, newRole, backendOk);
      match step.completion
      case Returned =>
        SwitchResult(busy.(message := SuccessMessage(newRole), loading := false), step.state, Some(PanelOf(newRole)))
      case Threw =>
        SwitchResult(busy.(error := SwitchError, loading := false), step.state, None)
  }

  /** A reported success with a backend and a user means the stored role is
      the chosen one, and the route is that role's panel. */
  lemma SuccessMeansSwitched(n: NavState, s: AuthState, newRole: Role, backendOk: bool)
    requires s.user.Some?
    requires HandleRoleSwitch(n, s, true, newRole, backendOk).nav.message == SuccessMessage(newRole)
    requires s.profile.Some? && s.profile.value.role != RoleName(newRole)
    ensures var r := HandleRoleSwitch(n, s, true, newRole, backendOk);
      r.auth.profile.Some? && ParseRole(r.auth.profile.value.role) == Some(newRole)
  {
    ParseRoleName(newRole);
  }

  /** The context's switch returns silently without a client, yet the bar
      would still report success.  That path is never taken: without a
      client nobody is signed in, so the bar is not drawn and a switch
      request changes nothing. */
  lemma {:induction false} SilentSwitchUnreachable(n: NavState, events: seq<ProviderEvent>, newRole: Role, backendOk: bool)
    ensures var s := RunProvider(Initial, false, events);
      !Visible(s) && HandleRoleSwitch(n, s, false, newRole, backendOk) == SwitchResult(n, s, None)
  {
    NoClientNoProfile(events);
  }

  /** A switch that goes through and a switch back restore the context. */
  lemma SwitchAndBack(n: NavState, s: AuthState, a: Role, b: Role)
    requires s.user.Some? && s.profile.Some? && ParseRole(s.profile.value.role) == Some(b) && a != b
    ensures var there := HandleRoleSwitch(n, s, true, a, true);
      HandleRoleSwitch(there.nav, there.auth, true, b, true).auth == s
  {
    RoleNameInjective(a, b);
    SwitchBack(s, a, b);
  }

  /** Signing out from the bar: the context forgets the user and the route is
      the sign-in page. */
  datatype LogoutResult = LogoutResult(auth: AuthState, route: Route)

  function Logout(s: AuthState, hasBackend: bool): (r: LogoutResult)
    ensures r.route == AuthPage
    ensures hasBackend ==> !Visible(r.auth)
    ensures !hasBackend ==> r.auth == s
  {
    LogoutResult(SignOut(s, hasBackend), AuthPage)
  }

  /** After signing out of a settled, configured session the home page is
      blank and on its way to the sign-in page. */
  lemma LogoutLeadsToSignIn(s: AuthState)
    requires s.hydrated && s.configured && !s.loading
    ensures var t := Logout(s, true).auth;
      HomePage.Render(t) == HomePage.Blank && HomePage.AuthRedirect(t) == Some(AuthPage)
  {
  }
}

=== FILE: options.dfy ===
/** The optional value used throughout the model: `None` stands for the
    application's `null`, `undefined` and `NaN` results.  `Result` stands for a
    computation that either returns or throws an `Error` with a message. */
module Options {

  datatype Option<+T> = None | Some(value: T) {

    /** The value, or `default` when there is none. */
    function GetOr(default: T): T {
      match this
      case Some(v) => v
      case None => default
    }
  }

  datatype Result<+T> = Success(value: T) | Failure(error: string)
}

=== FILE: panel_guard.dfy ===
/** What the two role panels (referrer and salesperson) share: the redirect
    effect that keeps out visitors without the panel's role, the gate that
    decides whether the panel is drawn, and the "latest five" list. */
module PanelGuard {
  import opened Options
  import opened Roles
  import opened AuthContext

  /** The redirect effect: once the context has settled, a visitor without a
      user goes to the sign-in page and a profile of another role goes home. */
  function GuardRedirect(s: AuthState, required: Role): (r: Option<Route>)
    ensures r.Some? <==> (s.hydrated && !s.loading &&
      (s.user.None? || (s.profile.Some? && s.profile.value.role != RoleName(required))))
    ensures r.Some? ==> (r.value == AuthPage <==> s.user.None?)
    ensures r.Some? ==> r.value == AuthPage || r.value == Home
  {
    if s.hydrated && !s.loading then
      if s.user.None? then Some(AuthPage)
      else if s.profile.Some? && s.profile.value.role != RoleName(required) then Some(Home)
      else None
    else None
  }

  datatype Gate = Spinner | Blank | Panel

  /** What the panel draws: a spinner until the context settles, nothing
      unless the signed-in user's profile has the panel's role. */
  function RenderGate(s: AuthState, required: Role): (g: Gate)
    ensures g == Spinner <==> !s.hydrated || s.loading
    ensures g == Panel <==> (s.hydrated && !s.loading && s.user.Some? && s.profile.Some?
      && ParseRole(s.profile.value.role) == Some(required))
  {
    if !s.hydrated || s.loading then Spinner
    else if s.user.None? || s.profile.None? || s.profile.value.role != RoleName(required) then Blank
    else Panel
  }

  /** A drawn panel is never left by the guard. */
  lemma PanelIsNotRedirected(s: AuthState, required: Role)
    requires RenderGate(s, required) == Panel
    ensures GuardRedirect(s, required).None?
  {
  }

  /** A blank panel is followed by a redirect, except for a signed-in user
      whose profile is missing: that visitor stays on an empty page. */
  lemma BlankRedirectsUnlessProfileMissing(s: AuthState, required: Role)
    requires RenderGate(s, required) == Blank
    ensures GuardRedirect(s, required).None? <==> s.user.Some? && s.profile.None?
  {
  }

  /** Each panel admits exactly one role. */
  lemma PanelAdmitsOneRole(s: AuthState, a: Role, b: Role)
    requires RenderGate(s, a) == Panel && RenderGate(s, b) == Panel
    ensures a == b
  {
  }

  /** The entries listed on the dashboard: the first five. */
  function Recent<T>(xs: seq<T>): (r: seq<T>)
    ensures |r| == if |xs| < 5 then |xs| else 5
    ensures forall i :: 0 <= i < |r| ==> r[i] == xs[i]
  {
    if |xs| <= 5 then xs else xs[..5]
  }

  /** Whether the "see all" control is shown. */
  function ShowsSeeAll<T>(xs: seq<T>): (shown: bool)
    ensures shown <==> |Recent(xs)| < |xs|
  {
    |xs| > 5
  }

  /** "See all" is offered exactly when the list shown leaves entries out. */
  lemma SeeAllIffTruncated<T>(xs: seq<T>)
    ensures ShowsSeeAll(xs) <==> Recent(xs) != xs
  {
    if ShowsSeeAll(xs) {
      assert |Recent(xs)| != |xs|;
    }
  }

  /** A newly prepended entry is listed first, followed by what was listed
      before, minus the fifth entry when the list was full. */
  lemma RecentOfPrepend<T>(x: T, xs: seq<T>)
    ensures Recent([x] + xs) == [x] + Recent(xs)[..|Recent([x] + xs)| - 1]
  {
    var r := Recent([x] + xs);
    var e := [x] + Recent(xs)[..|r| - 1];
    assert |r| == |e|;
    forall i | 0 <= i < |r|
      ensures r[i] == e[i]
    {
      if i > 0 {
        assert r[i] == ([x] + xs)[i] == xs[i - 1];
      }
    }
  }
}

=== FILE: referrer_panel.dfy ===
/** The referrer ("indicador") panel: the leads registered in this session,
    the figures derived from them, the tier badges, and the switch between
    the dashboard and the registration form. */
module ReferrerPanel {
  import opened JsNumbers
  import opened LeadForm

  const Converted := "convertido"
  const Lost := "perdido"

  /** The number of leads with the given status. */
  function CountStatus(leads: seq<Lead>, status: string): (n: nat)
    ensures n <= |leads|
    ensures |leads| == 1 ==> n == (if leads[0].status == status then 1 else 0)
  {
    if |leads| == 0 then 0
    else (if leads[0].status == status then 1 else 0) + CountStatus(leads[1..], status)
  }

  /** The converted leads, in list order. */
  function ConvertedLeads(leads: seq<Lead>): (r: seq<Lead>)
    ensures |r| == CountStatus(leads, Converted)
    ensures forall i :: 0 <= i < |r| ==> r[i].status == Converted && r[i] in leads
    ensures |leads| == 1 ==> r == (if leads[0].status == Converted then leads else [])
  {
    if |leads| == 0 then []
    else if leads[0].status == Converted then [leads[0]] + ConvertedLeads(leads[1..])
    else ConvertedLeads(leads[1..])
  }

  /** A lead's commission; a missing one counts as 0. */
  function Commission(l: Lead): real {
    l.comissao.GetOr(0.0)
  }

  /** The commission total; leads without a commission add nothing. */
  function SumCommissions(leads: seq<Lead>): (total: real)
    ensures (forall i :: 0 <= i < |leads| ==> leads[i].comissao.None?) ==> total == 0.0
    ensures |leads| == 1 ==> total == Commission(leads[0])
  {
    if |leads| == 0 then 0.0 else Commission(leads[0]) + SumCommissions(leads[1..])
  }

  datatype Stats = Stats(registeredLeads: nat, convertedSales: nat, monthCommissions: real, ranking: nat)

  /** The figures recomputed whenever the lead list changes. */
  function StatsOf(leads: seq<Lead>): (st: Stats)
    ensures st.registeredLeads == |leads|
    ensures st.convertedSales == CountStatus(leads, Converted) <= st.registeredLeads
    ensures st.monthCommissions == SumCommissions(ConvertedLeads(leads))
    ensures st.ranking <= 10 && st.ranking <= |leads|
    ensures st.ranking == 0 <==> |leads| == 0
    ensures |leads| <= 10 ==> st.ranking == |leads|
    ensures |leads| >= 10 ==> st.ranking == 10
  {
    Stats(|leads|, |ConvertedLeads(leads)|, SumCommissions(ConvertedLeads(leads)),
          if |leads| > 0 then (if |leads| < 10 then |leads| else 10) else 0)
  }

  lemma {:induction false} CountConcat(a: seq<Lead>, b: seq<Lead>, status: string)
    ensures CountStatus(a + b, status) == CountStatus(a, status) + CountStatus(b, status)
  {
    if |a| > 0 {
      assert (a + b)[1..] == a[1..] + b;
      CountConcat(a[1..], b, status);
    } else {
      assert a + b == b;
    }
  }

  lemma {:induction false} SumConcat(a: seq<Lead>, b: seq<Lead>)
    ensures SumCommissions(a + b) == SumCommissions(a) + SumCommissions(b)
  {
    if |a| > 0 {
      assert (a + b)[1..] == a[1..] + b;
      SumConcat(a[1..], b);
    } else {
      assert a + b == b;
    }
  }

  lemma {:induction false} ConvertedConcat(a: seq<Lead>, b: seq<Lead>)
    ensures ConvertedLeads(a + b) == ConvertedLeads(a) + ConvertedLeads(b)
  {
    if |a| > 0 {
      assert (a + b)[0] == a[0];
      assert (a + b)[1..] == a[1..] + b;
      ConvertedConcat(a[1..], b);
    } else {
      assert a + b == b;
    }
  }

  /** The commission total is the sum over converted leads only: leads of any
      other status contribute nothing, whatever commission they carry. */
  lemma {:induction false} OnlyConvertedEarn(leads: seq<Lead>)
    requires forall i :: 0 <= i < |leads| ==> leads[i].status != Converted
    ensures StatsOf(leads).monthCommissions == 0.0 && StatsOf(leads).convertedSales == 0
  {
    if |leads| > 0 {
      OnlyConvertedEarn(leads[1..]);
    }
  }

  /** Commissions are never negative when no lead carries a negative one. */
  lemma {:induction false} CommissionsNonNegative(leads: seq<Lead>)
    requires forall i :: 0 <= i < |leads| ==> Commission(leads[i]) >= 0.0
    ensures SumCommissions(leads) >= 0.0
  {
    if |leads| > 0 {
      CommissionsNonNegative(leads[1..]);
    }
  }

  /** New, converted and lost leads are counted apart: together they never
      exceed the number of leads. */
  lemma {:induction false} StatusCountsBounded(leads: seq<Lead>)
    ensures CountStatus(leads, NewStatus) + CountStatus(leads, Converted) + CountStatus(leads, Lost) <= |leads|
  {
    if |leads| > 0 {
      StatusCountsBounded(leads[1..]);
    }
  }

  /** Conversion percentage shown on the dashboard. */
  function ConversionPercent(leads: seq<Lead>): (p: int)
    ensures 0 <= p <= 100
    ensures CountStatus(leads, Converted) == 0 ==> p == 0
    ensures |leads| > 0 && CountStatus(leads, Converted) == |leads| ==> p == 100
    ensures |leads| > 0 ==> p as real - 0.5 <= (CountStatus(leads, Converted) as real / |leads| as real) * 100.0
    ensures |leads| > 0 ==> (CountStatus(leads, Converted) as real / |leads| as real) * 100.0 < p as real + 0.5
  {
    var st := StatsOf(leads);
    if st.registeredLeads > 0 then
      var q := st.convertedSales as real / st.registeredLeads as real;
      RatioBounds(st.convertedSales, st.registeredLeads);
      Round(q * 100.0)
    else 0
  }

  lemma RatioBounds(c: nat, n: nat)
    requires 0 < n && c <= n
    ensures 0.0 <= c as real / n as real <= 1.0
    ensures c == 0 ==> c as real / n as real == 0.0
    ensures c == n ==> c as real / n as real == 1.0
  {
    QuotientBounds(c as real, n as real);
  }

  lemma QuotientBounds(x: real, y: real)
    requires 0.0 <= x <= y && 0.0 < y
    ensures 0.0 <= x / y <= 1.0
    ensures x == 0.0 ==> x / y == 0.0
    ensures x == y ==> x / y == 1.0
  {
    var q := x / y;
    assert q * y == x;
    assert (1.0 - q) * y == y - x;
  }

  datatype Tier = Iniciante | Bronze | Prata | Ouro

  /** The tier badge for the number of registered leads. */
  function TierOf(registered: nat): (t: Tier)
    ensures t == Iniciante <==> registered == 0
    ensures t == Ouro <==> registered >= 10
  {
    if registered == 0 then Iniciante
    else if registered < 5 then Bronze
    else if registered < 10 then Prata
    else Ouro
  }

  function TierRank(t: Tier): nat {
    match t
    case Iniciante => 0
    case Bronze => 1
    case Prata => 2
    case Ouro => 3
  }

  /** More leads never mean a lower tier. */
  lemma TierMonotone(a: nat, b: nat)
    requires a <= b
    ensures TierRank(TierOf(a)) <= TierRank(TierOf(b))
  {
  }

  /** The tier thresholds: one lead for Bronze, five for Prata, ten for Ouro. */
  lemma TierThresholds(n: nat)
    ensures TierOf(n) == Iniciante <==> n == 0
    ensures TierRank(TierOf(n)) >= 1 <==> n >= 1
    ensures TierRank(TierOf(n)) >= 2 <==> n >= 5
    ensures TierRank(TierOf(n)) >= 3 <==> n >= 10
  {
  }

  /** The "towards next level" percentage: a fifth of the way per lead up to
      five leads, then full. */
  function Progress(registered: nat): (p: int)
    ensures 0 <= p <= 100
    ensures registered < 5 ==> p == 20 * registered
    ensures registered >= 5 ==> p == 100
  {
    if registered < 5 then
      var x := (registered as real / 5.0) * 100.0;
      assert x == (20 * registered) as real;
      RoundOfWhole(20 * registered);
      Round(x)
    else 100
  }

  lemma ProgressMonotone(a: nat, b: nat)
    requires a <= b
    ensures Progress(a) <= Progress(b)
  {
  }

  /** The status badge of a listed lead. */
  function StatusLabel(status: string): (badge: string)
    ensures status == Converted ==> badge == "Convertido"
    ensures status == Lost ==> badge == "Perdido"
    ensures badge == "Novo" <==> status != Converted && status != Lost
  {
    if status == Converted then "Convertido"
    else if status == Lost then "Perdido"
    else "Novo"
  }

  /** The panel's local state: the leads, newest first, and whether the
      registration form is open instead of the dashboard. */
  datatype PanelState = PanelState(leads: seq<Lead>, showForm: bool)

  const Start := PanelState([], false)

  datatype Event = OpenForm | CloseForm | Register(lead: Lead)

  /** `OpenForm` is the registration card or the empty-list button,
      `CloseForm` the back button or the form's cancel, `Register` a
      submitted lead. */
  function Step(p: PanelState, e: Event): (q: PanelState)
    ensures q.showForm <==> e == OpenForm
    ensures e.Register? ==> q.leads == [e.lead] + p.leads
    ensures !e.Register? ==> q.leads == p.leads
  {
    match e
    case OpenForm => p.(showForm := true)
    case CloseForm => p.(showForm := false)
    case Register(l) => PanelState([l] + p.leads, false)
  }

  /** Registering puts the lead first and keeps the older ones in order. */
  lemma RegisterPrepends(p: PanelState, l: Lead)
    ensures |Step(p, Register(l)).leads| == |p.leads| + 1
    ensures Step(p, Register(l)).leads[0] == l
    ensures Step(p, Register(l)).leads[1..] == p.leads
    ensures !Step(p, Register(l)).showForm
  {
  }

  /** Registering any lead adds one registered lead; a converted lead also
      adds one sale and its commission, any other lead adds neither. */
  lemma RegisterLead(p: PanelState, l: Lead)
    ensures var before, after := StatsOf(p.leads), StatsOf(Step(p, Register(l)).leads);
      after.registeredLeads == before.registeredLeads + 1 &&
      after.convertedSales == before.convertedSales + (if l.status == Converted then 1 else 0) &&
      after.monthCommissions == before.monthCommissions + (if l.status == Converted then Commission(l) else 0.0)
  {
    CountConcat([l], p.leads, Converted);
    ConvertedConcat([l], p.leads);
    SumConcat(ConvertedLeads([l]), ConvertedLeads(p.leads));
  }

  /** Registering a lead from the form adds one registered lead and changes
      neither the converted count nor the commissions. */
  lemma RegisterFormLead(p: PanelState, f: LeadFields, now: int, nowIso: string)
    requires Submit(f, now, nowIso).Submitted?
    ensures var before, after := StatsOf(p.leads), StatsOf(Step(p, Register(Submit(f, now, nowIso).lead)).leads);
      after.registeredLeads == before.registeredLeads + 1 &&
      after.convertedSales == before.convertedSales &&
      after.monthCommissions == before.monthCommissions
  {
    var l := Submit(f, now, nowIso).lead;
    CountConcat([l], p.leads, Converted);
    ConvertedConcat([l], p.leads);
    assert ConvertedLeads([l]) == [];
  }

  /** Leads registered through the form alone never convert: starting from an
      empty panel, every sequence of events leaves the converted count and
      the commissions at zero. */
  lemma {:induction false} FormLeadsNeverConvert(events: seq<Event>)
    requires forall i :: 0 <= i < |events| ==> events[i].Register? ==> events[i].lead.status == NewStatus
    ensures var p := Run(Start, events);
      StatsOf(p.leads).convertedSales == 0 && StatsOf(p.leads).monthCommissions == 0.0
  {
    AllNew(events);
    OnlyConvertedEarn(Run(Start, events).leads);
  }

  lemma {:induction false} AllNew(events: seq<Event>)
    requires forall i :: 0 <= i < |events| ==> events[i].Register? ==> events[i].lead.status == NewStatus
    ensures forall i :: 0 <= i < |Run(Start, events).leads| ==> Run(Start, events).leads[i].status == NewStatus
  {
    if |events| > 0 {
      var init := events[..|events| - 1];
      assert forall i :: 0 <= i < |init| ==> init[i] == events[i];
      AllNew(init);
    }
  }

  /** The panel after a sequence of events. */
  function Run(p: PanelState, events: seq<Event>): PanelState {
    if |events| == 0 then p else Step(Run(p, events[..|events| - 1]), events[|events| - 1])
  }
}

=== FILE: roles.dfy ===
/** The three user roles and the application's routes.  A profile stores its
    role as text, as it comes from the database, and every page compares that
    text with the role names; `Role` is the typed role a user picks. */
module Roles {
  import opened Options

  datatype Role = Admin | Vendedor | Indicador

  /** The text stored in a profile for each role. */
  function RoleName(r: Role): string {
    match r
    case Admin => "admin"
    case Vendedor => "vendedor"
    case Indicador => "indicador"
  }

  /** Reads a stored role; any text other than the three names is no role. */
  function ParseRole(s: string): (r: Option<Role>)
    ensures r.Some? ==> RoleName(r.value) == s
    ensures r.None? ==> forall x: Role :: RoleName(x) != s
  {
    if s == "admin" then Some(Admin)
    else if s == "vendedor" then Some(Vendedor)
    else if s == "indicador" then Some(Indicador)
    else None
  }

  lemma ParseRoleName(r: Role)
    ensures ParseRole(RoleName(r)) == Some(r)
  {
  }

  lemma RoleNameInjective(a: Role, b: Role)
    ensures RoleName(a) == RoleName(b) <==> a == b
  {
  }

  datatype Route = Home | AuthPage | AdminPanel | VendedorPanel | IndicadorPanel

  /** The URL path of each route. */
  function Path(r: Route): string {
    match r
    case Home => "/"
    case AuthPage => "/auth"
    case AdminPanel => "/admin"
    case VendedorPanel => "/vendedor"
    case IndicadorPanel => "/indicador"
  }

  /** Each role's own panel. */
  function PanelOf(r: Role): (route: Route)
    ensures Path(route) == "/" + RoleName(r)
    ensures route != Home && route != AuthPage
  {
    match r
    case Admin => AdminPanel
    case Vendedor => VendedorPanel
    case Indicador => IndicadorPanel
  }

  lemma PathInjective(a: Route, b: Route)
    ensures Path(a) == Path(b) <==> a == b
  {
  }

  /** Distinct roles have distinct panels. */
  lemma PanelOfInjective(a: Role, b: Role)
    ensures PanelOf(a) == PanelOf(b) <==> a == b
  {
  }
}

=== FILE: sales_panel.dfy ===
/** The salesperson ("vendedor") panel: the sales registered in this session,
    the figures derived from them, and the switch between the dashboard, the
    sale-registration form and the financing simulator. */
module SalesPanel {
  import opened Options
  import opened JsNumbers

  /** A registered sale; only the customer's name and the sale value are
      read by the panel's logic. */
  datatype Sale = Sale(clienteNome: string, valorVenda: real)

  /** The sum of the sale values; with no negative sale, no single sale is
      worth more than the total. */
  function Revenue(sales: seq<Sale>): (total: real)
    ensures (forall i :: 0 <= i < |sales| ==> sales[i].valorVenda >= 0.0) ==>
      forall i :: 0 <= i < |sales| ==> sales[i].valorVenda <= total
  {
    if |sales| == 0 then 0.0 else sales[0].valorVenda + Revenue(sales[1..])
  }

  /** Each salesperson is shown five assigned leads. */
  const AssignedLeads := 5

  /** The monthly goal: five sales and R$ 100,000. */
  const SalesGoal := 5
  const RevenueGoal := 100000.0

  datatype Stats = Stats(assignedLeads: nat, monthSales: nat, revenue: real, conversionRate: int)

  /** The figures recomputed whenever the sale list changes.  The conversion
      rate counts sales against the five assigned leads and is not capped. */
  function StatsOf(sales: seq<Sale>): (st: Stats)
    ensures st.assignedLeads == 5 && st.monthSales == |sales|
    ensures st.revenue == Revenue(sales)
    ensures st.conversionRate == 20 * |sales|
    ensures |sales| > 5 ==> st.conversionRate > 100
  {
    Stats(AssignedLeads, |sales|, Revenue(sales),
          if |sales| > 0 then GoalPercent(|sales|) else 0)
  }

  /** Sales as a percentage of the five-sale goal. */
  function GoalPercent(monthSales: nat): (p: int)
    ensures p == 20 * monthSales
  {
    var x := (monthSales as real / SalesGoal as real) * 100.0;
    assert x == (20 * monthSales) as real;
    RoundOfWhole(20 * monthSales);
    Round(x)
  }

  /** The conversion rate and the goal percentage agree. */
  lemma ConversionIsGoalPercent(sales: seq<Sale>)
    ensures StatsOf(sales).conversionRate == GoalPercent(StatsOf(sales).monthSales)
  {
  }

  /** Revenue as a percentage of the R$ 100,000 goal, rounded half up. */
  function RevenueGoalPercent(revenue: real): (p: int)
    ensures p as real - 0.5 <= revenue / 1000.0 < p as real + 0.5
  {
    assert (revenue / RevenueGoal) * 100.0 == revenue / 1000.0;
    Round((revenue / RevenueGoal) * 100.0)
  }

  lemma RevenueGoalMonotone(a: real, b: real)
    requires a <= b
    ensures RevenueGoalPercent(a) <= RevenueGoalPercent(b)
  {
  }

  /** The accumulated commission shown to the salesperson: 3 % of revenue. */
  function SalesCommission(revenue: real): (c: real)
    ensures revenue >= 0.0 ==> 0.0 <= c <= revenue
    ensures c * 100.0 == revenue * 3.0
  {
    revenue * 0.03
  }

  lemma {:induction false} RevenueConcat(a: seq<Sale>, b: seq<Sale>)
    ensures Revenue(a + b) == Revenue(a) + Revenue(b)
  {
    if |a| > 0 {
      assert (a + b)[1..] == a[1..] + b;
      RevenueConcat(a[1..], b);
    } else {
      assert a + b == b;
    }
  }

  lemma {:induction false} RevenueNonNegative(sales: seq<Sale>)
    requires forall i :: 0 <= i < |sales| ==> sales[i].valorVenda >= 0.0
    ensures Revenue(sales) >= 0.0
  {
    if |sales| > 0 {
      RevenueNonNegative(sales[1..]);
    }
  }

  /** The commission of two batches of sales is the sum of their
      commissions. */
  lemma CommissionAdditive(a: seq<Sale>, b: seq<Sale>)
    ensures SalesCommission(Revenue(a + b)) == SalesCommission(Revenue(a)) + SalesCommission(Revenue(b))
  {
    RevenueConcat(a, b);
  }

  const Unranked := "Não classificado"

  /** The ranking shown in the goals ("Metas") alert: `#` followed by four
      minus the number of sales. */
  function RankingText(monthSales: nat): (t: string)
    ensures monthSales == 0 <==> t == Unranked
    ensures monthSales > 0 ==> |t| >= 2 && t[0] == '#' && ParseInt(t[1..]) == Some(4 - monthSales)
  {
    if monthSales > 0 then
      var n := IntToString(4 - monthSales);
      ParseIntOfIntToString(4 - monthSales);
      assert ("#" + n)[1..] == n;
      "#" + n
    else Unranked
  }

  /** The ranking improves with every sale, reaches "#0" at four sales and
      turns negative after that. */
  lemma RankingPastFour(monthSales: nat)
    requires monthSales >= 4
    ensures monthSales == 4 ==> RankingText(monthSales) == "#0"
    ensures monthSales > 4 ==> RankingText(monthSales)[1] == '-'
  {
    if monthSales == 4 {
      assert IntToString(0) == "0";
    }
  }

  datatype View = Dashboard | RegistroVenda | Simulador

  datatype PanelState = PanelState(sales: seq<Sale>, view: View)

  const Start := PanelState([], Dashboard)

  /** `OpenSaleForm` is the registration card or the empty-list button,
      `OpenSimulator` the simulator card; `Back` is the back button of either
      view, `Cancel` the form's cancel and `CloseSimulator` the simulator's
      close; `Register` a submitted sale. */
  datatype Event = OpenSaleForm | OpenSimulator | Back | Cancel | CloseSimulator | Register(sale: Sale)

  function Step(p: PanelState, e: Event): (q: PanelState)
    ensures q.view == RegistroVenda <==> e == OpenSaleForm
    ensures q.view == Simulador <==> e == OpenSimulator
    ensures e.Register? ==> q.sales == [e.sale] + p.sales
    ensures !e.Register? ==> q.sales == p.sales
  {
    match e
    case OpenSaleForm => p.(view := RegistroVenda)
    case OpenSimulator => p.(view := Simulador)
    case Back => p.(view := Dashboard)
    case Cancel => p.(view := Dashboard)
    case CloseSimulator => p.(view := Dashboard)
    case Register(sale) => PanelState([sale] + p.sales, Dashboard)
  }

  /** Every way out of a view lands on the dashboard. */
  lemma LeavingReturnsToDashboard(p: PanelState, e: Event)
    requires e == Back || e == Cancel || e == CloseSimulator || e.Register?
    ensures Step(p, e).view == Dashboard
  {
  }

  /** Registering a sale adds it first, grows the revenue by its value and
      the month's sales by one. */
  lemma RegisterSale(p: PanelState, sale: Sale)
    ensures var q := Step(p, Register(sale));
      q.sales[1..] == p.sales && q.sales[0] == sale &&
      StatsOf(q.sales).monthSales == StatsOf(p.sales).monthSales + 1 &&
      StatsOf(q.sales).revenue == StatsOf(p.sales).revenue + sale.valorVenda
  {
    RevenueConcat([sale], p.sales);
    assert Revenue([sale]) == sale.valorVenda + Revenue([]);
  }
}
